=== FILE: README.md ===
# bug.fun bounty board — front-end data shaping, modelled in Dafny

bug.fun is a bounty board on a Solana program. Owners post bounties
(`createBounty`), other users like them (`likeBounty`) and submit pull-request
solutions (`submitSolution`), and owners verify or disqualify the solutions
they receive. This project models the React front end's own logic, which sits
between the wallet and the on-chain client:

- the program context, which rebuilds the client whenever the wallet's
  connection flag or key changes (`ProgramContext`);
- the bounty list's guard, per-item normalisation with its placeholder for
  an account that fails to normalise, date and address formatting, and image
  fallback (`BountyList`);
- the detail view's guard, its normalisation, the like and submit actions
  with their optimistic patches, and which controls are enabled
  (`ViewBounty`);
- the dashboard's selection of own bounties, received and submitted
  solutions, the status tag and its colour, and the status patches after
  verify or disqualify (`Dashboard`);
- the navigation bar's count, three newest bounties, hard-coded fallback
  rows and three-and-three address abbreviation (`Navbar`);
- the create-bounty form with its console log (`BountyForm`) and the
  create-profile form (`ProfileForm`).

Two support modules hold what every view shares. `Js` has the JavaScript
value semantics the components lean on: falsy `||` defaults, `Number(x)`,
`slice` clamping, `includes` and `filter`. `Ledger` has addresses, seed
tuples, raw accounts, the wallet and session, transactions and the outcome
of sending one.

Every asynchronous action is split at its `await`. `Begin…` is the
synchronous part: the guard, the busy flag, the log lines and the
transaction to send. `Settle…` is what happens once the call resolves,
given its outcome as an `Rpc` value. Each fetch is a parameter of type
`Result`: the fetched data, or the message it threw. Address derivation
is external, so a transaction carries the seed tuple it derives its target
from.

bn.js `toNumber()` throws for a magnitude of 2^53 or more. This one throw
explains three behaviours:

- the placeholder entry in the list;
- the error page in the detail view;
- the navigation bar's sort throwing, which happens only when there are
  two or more bounties.

## Model

| member | source | states |
|---|---|---|
| Js.NumberOrZero | src/component/fetchallbounties.tsx:87-89 | `Number(x) \|\| 0` keeps an integer it is given, and gives 0 for undefined or NaN |
| Js.Truncate | src/component/fetchallbounties.tsx:125 | the middle-ellipsis abbreviation: the first and last `min(k, n)` characters around '...', of length `2·min(k, n) + 3` |
| Js.SliceFront | src/component/BountyForm.tsx:29-32 | `slice(0, k)` / `substring(0, k)`: a prefix of the string whose length is k clamped to the string's length |
| Js.SliceBack | src/component/Navbar/Navbar.tsx:55 | `slice(-k)`: a suffix of the string of length k clamped to the string's length, and the whole string for k = 0 |
| Js.TruncateShort | src/component/Dashboard/page.tsx:210 | a string no longer than `k` appears twice, once on each side of the ellipsis |
| Js.OccursImpliesIncludes | src/component/BountyForm.tsx:145 | an occurrence of the pattern at any position is found by the scan |
| Js.IncludesImpliesOccurs | src/component/BountyForm.tsx:145 | what the scan finds is an occurrence at some position |
| Js.IncludesIffOccurs | src/component/BountyForm.tsx:145 | the left-to-right scan of `includes` is true exactly when the pattern occurs at some position |
| Js.IncludesAfterPrefix | src/component/BountyForm.tsx:145 | a line that contains the pattern after any prefix counts as including it |
| Js.Filter | src/component/Dashboard/page.tsx:89-90 | `Array.prototype.filter`: no longer than the input, and an element is kept exactly when it is in the input and the predicate accepts it |
| Js.FilterAppend | src/component/Dashboard/page.tsx:89-90 | `filter` keeps relative order: filtering a concatenation is concatenating the filtered halves |
| Ledger.SeedSchemesDistinct | src/component/Profile/page.tsx:15-18 | the profile, bounty and solution seed tuples never coincide, and each scheme is injective in its inputs |
| Ledger.BigToNumber | src/component/fetchallbounties.tsx:88 | `createdAt?.toNumber()` is undefined when the field is absent, keeps a value inside ±2^53, and throws exactly outside that range |
| ProgramContext.ProgramFor | src/context/ProgramContext.tsx:25-32 | an effect run installs a client exactly when the wallet is connected and has a key, bound to that key and built by that run, and clears it otherwise |
| ProgramContext.Render | src/context/ProgramContext.tsx:23-33 | a render re-runs the effect only when `[connected, publicKey]` differs from the last run, counting the run and installing a client built by it; otherwise the provider is unchanged |
| ProgramContext.Value | src/context/ProgramContext.tsx:35-39 | the context value is the current program and the incoming wallet, unchanged |
| ProgramContext.RenderAllSettled | src/context/ProgramContext.tsx:21-33 | after any renders, the program is the one the last effect run installed, for the dependencies of the last wallet |
| ProgramContext.ProgramTracksWallet | src/context/ProgramContext.tsx:21-33 | after any non-empty sequence of renders, the program is present exactly when the latest wallet is connected with a key, and it is bound to that key |
| ProgramContext.SameDepsKeepProgram | src/context/ProgramContext.tsx:33 | re-rendering with an unchanged connection flag and key does not re-run the effect: the run count and the very same client object are kept |
| ProgramContext.ChangedDepsNewProgram | src/context/ProgramContext.tsx:23-33 | a changed connection flag or key re-runs the effect, and for a connected wallet with a key it installs a new client object, different from the one before |
| BountyList.Normalise | src/component/fetchallbounties.tsx:78-91 | normalising throws exactly when the creation time is outside ±2^53; otherwise the id and title are non-empty, the time is safe and the authority is kept |
| BountyList.NormaliseDefaults | src/component/fetchallbounties.tsx:81-89 | field by field: 'N/A', 'Untitled' and '' replace missing or empty strings, 0 replaces a missing or NaN number, and everything else is kept |
| BountyList.NormaliseRoundTrip | src/component/fetchallbounties.tsx:76-91 | a normalised record read back as an account normalises to itself |
| BountyList.NormaliseIdempotent | src/component/fetchallbounties.tsx:76-91 | normalising twice equals normalising once |
| BountyList.FormatItem | src/component/fetchallbounties.tsx:76-101 | an item becomes the placeholder exactly when normalisation throws; otherwise it carries exactly the record normalisation returns; its address is kept either way |
| BountyList.FormatAll | src/component/fetchallbounties.tsx:76-102 | one entry per fetched account, in order: the i-th entry is the i-th account formatted on its own, with its account's address; a bad account never aborts the list |
| BountyList.Guard | src/component/fetchallbounties.tsx:63-67 | no program gives 'Program not initialized', and a program without a connected wallet gives 'Wallet not connected' |
| BountyList.Load | src/component/fetchallbounties.tsx:61-114 | the guard's message, or 'Failed to fetch bounties: ' plus the thrown message, or exactly the formatted entries of the fetched accounts |
| BountyList.FormatDate | src/component/fetchallbounties.tsx:116-119 | 'N/A' exactly for an undefined, zero or NaN timestamp, and otherwise a date of that timestamp |
| BountyList.TruncateAddress | src/component/fetchallbounties.tsx:121-129 | 'Unknown' exactly for a missing address, and otherwise the four-and-four abbreviation |
| BountyList.FormattedCard | src/component/fetchallbounties.tsx:200-252 | a normalised card shows its own title and id (the card's 'Untitled Bounty' fallback is unreachable), the fallback image exactly when there is no image link, and 'N/A' exactly for a zero or absent creation time |
| BountyList.InvalidCard | src/component/fetchallbounties.tsx:94-100 | the placeholder card shows the fallback image, 'Invalid Bounty Data', id 'N/A', owner 'Unknown', no repository link, 0 likes and date 'N/A'; only an account with a creation time becomes one |
| BountyList.CardImage | src/component/fetchallbounties.tsx:203 | a card always has an image source: a normalised entry's own non-empty image link, and the fallback image for the placeholder or an empty link |
| ViewBounty.Guard | src/component/ViewBounty/page.tsx:36-40 | the fetch is refused exactly without a program, a connected wallet or a route id, with the messages in that order of priority |
| ViewBounty.Load | src/component/ViewBounty/page.tsx:34-68 | the view shows a bounty exactly when the guard passes, the fetch succeeds and normalisation does not throw; a guard failure shows the guard's message, and a failed fetch or a throwing normalisation shows 'Failed to fetch bounty: ' plus the thrown message |
| ViewBounty.SameNormalisationAsList | src/component/ViewBounty/page.tsx:48-58 | an account the list shows normalised is shown here as the same record |
| ViewBounty.BeginLike | src/component/ViewBounty/page.tsx:70-81 | without a key, program or id nothing happens; otherwise the like flag is raised and `likeBounty` is sent to the route's bounty, signed by the wallet |
| ViewBounty.SettleLike | src/component/ViewBounty/page.tsx:82-89 | on confirmation the bounty is marked liked and its count rises by one with nothing else changed; on failure only the busy flag drops |
| ViewBounty.LikeEffect | src/component/ViewBounty/page.tsx:70-90 | a whole like: nothing without a key, program or id; when confirmed, the `likeBounty` transaction, the bounty marked liked and its count one higher with every other field and flag as before (a null bounty stays null); only the flag when it fails |
| ViewBounty.BeginSubmit | src/component/ViewBounty/page.tsx:92-113 | `submitSolution(prUrl)` is sent to the address derived from `["solution", bounty, submitter]`, signed by the submitter |
| ViewBounty.SettleSubmit | src/component/ViewBounty/page.tsx:114-122 | on confirmation the link is cleared and the modal closed; on failure both are kept; the bounty and the like state are untouched |
| ViewBounty.OpenModal | src/component/ViewBounty/page.tsx:287-290 | the modal can be opened only with a connected wallet, and opening it changes nothing else |
| ViewBounty.CloseModal | src/component/ViewBounty/page.tsx:320 | cancelling closes the modal and keeps the typed link |
| ViewBounty.BusyFlagsGate | src/component/ViewBounty/page.tsx:214-215 | while a like or a submission is in flight its button is disabled, and an empty link cannot be submitted |
| ViewBounty.SubmitThenEnabled | src/component/ViewBounty/page.tsx:312-315 | after a confirmed submission the submit button is disabled; after a failed one it is enabled exactly when the kept link is non-empty |
| ViewBounty.Image | src/component/ViewBounty/page.tsx:195-196 | the detail image is the image link, or the fallback image when there is none |
| Dashboard.Parse | src/component/Dashboard/page.tsx:38 | a status object denotes a status exactly when its first key is 'pending', 'verified' or 'disqualified' |
| Dashboard.ParseKeysOf | src/component/Dashboard/page.tsx:166-170 | the status object written by a patch reads back as that status, and only the pending one reads as 'pending' |
| Dashboard.TagColour | src/component/Dashboard/page.tsx:317-321 | yellow exactly for pending, green exactly for verified, and red for disqualified or anything unrecognised |
| Dashboard.ReviewIffYellow | src/component/Dashboard/page.tsx:317-322 | the verify and disqualify buttons appear exactly where the tag is yellow |
| Dashboard.Guard | src/component/Dashboard/page.tsx:62-66 | the load is refused with 'Please connect your wallet' exactly without a program, a connection or a key |
| Dashboard.UserBounties | src/component/Dashboard/page.tsx:89-90 | the filter throws exactly when some fetched bounty has no authority; otherwise it keeps exactly the bounties the wallet owns |
| Dashboard.UserBountiesKeepOrder | src/component/Dashboard/page.tsx:89-104 | the selection keeps fetch order: selecting from two halves and joining is selecting from the whole |
| Dashboard.ReceivedKeepOrder | src/component/Dashboard/page.tsx:110-111 | the received selection distributes over concatenation, so it keeps the fetch order |
| Dashboard.SubmittedKeepOrder | src/component/Dashboard/page.tsx:125-126 | the submitted selection distributes over concatenation, so it keeps the fetch order |
| Dashboard.ReceivedSolutions | src/component/Dashboard/page.tsx:110-111 | a solution is received exactly when its bounty is one of the wallet's bounties |
| Dashboard.SubmittedSolutions | src/component/Dashboard/page.tsx:125-126 | a solution is listed as submitted exactly when the wallet is its authority |
| Dashboard.SolutionInBothLists | src/component/Dashboard/page.tsx:110-126 | on any loaded dashboard, a fetched solution whose author is the wallet, to a fetched bounty the wallet owns, appears in both the received and the submitted list |
| Dashboard.ProfileAfter | src/component/Dashboard/page.tsx:53-86 | the profile state is set only by a successful fetch; a failed fetch or a failed guard leaves the previous value, and a present profile is never cleared |
| Dashboard.ProfileSurvivesWalletSwitch | src/component/Dashboard/page.tsx:53-148 | after one wallet's profile was loaded, a switch to another wallet whose profile fetch fails (the effect re-runs on the key) shows the first wallet's profile, whose authority is not the new wallet |
| Dashboard.Load | src/component/Dashboard/page.tsx:53-145 | the dashboard is ready exactly when the guard passes and both list fetches and the selection succeed; a failed profile fetch does not fail it and shows the profile from before this load; each list holds exactly its members, and is exactly the order-keeping selection from the fetched list (so fetch order is shown); each failure shows 'Failed to fetch dashboard data: ' plus the message thrown, in fetch order |
| Dashboard.SetStatus | src/component/Dashboard/page.tsx:166-170 | the patch replaces the status of the entries with the given address and leaves every other entry as it was |
| Dashboard.Decide | src/component/Dashboard/page.tsx:150-175 | verify sends `verifySolution` and disqualify `disqualifySolution`, to the solution's address, signed by the wallet; on confirmation the solution reads as the verdict and nothing else changes; on failure the list is unchanged |
| Dashboard.NeverPendingAgain | src/component/Dashboard/page.tsx:150-201 | across any sequence of decisions on the received list, no entry is added, removed or re-addressed, and a reviewed solution never shows there as pending again |
| Dashboard.DecideView | src/component/Dashboard/page.tsx:166-170 | a decision patches the received list only; the profile, the bounties and the submitted list stay as loaded |
| Dashboard.SubmittedListStaysStale | src/component/Dashboard/page.tsx:125-137 | when the wallet verifies or disqualifies its own solution, the received list shows the verdict while the submitted list still shows it pending, in yellow |
| Dashboard.ReviewHasNoBusyFlag | src/component/Dashboard/page.tsx:150-152 | verify and disqualify set no busy flag: whatever the view's state, a click sends the same transaction, so a second click while one is in flight sends a second one |
| Dashboard.TruncateAddress | src/component/Dashboard/page.tsx:208-211 | the four-and-four abbreviation with no guard: '' gives '...' and a short string appears twice |
| Dashboard.DescriptionPreview | src/component/Dashboard/page.tsx:278 | the first 100 characters, with '...' after them exactly when the description is longer |
| Navbar.CreatedKey | src/component/Navbar/Navbar.tsx:34 | the sort key is the creation time, or 0 when it is absent, and reading it throws exactly outside ±2^53 |
| Navbar.InsertDescending | src/component/Navbar/Navbar.tsx:34 | inserting into a newest-first list keeps it newest-first |
| Navbar.SortDescending | src/component/Navbar/Navbar.tsx:33-34 | the sort is a permutation of its input, newest first |
| Navbar.Insert | src/component/Navbar/Navbar.tsx:34 | one insertion step of the sort: the result is the list with exactly one more occurrence of the new element (same multiset plus it) |
| Navbar.PrefixOfDescending | src/component/Navbar/Navbar.tsx:35 | the first `k` of a sorted list are sorted, and none of the rest is newer than any of them |
| Navbar.RecentAreNewest | src/component/Navbar/Navbar.tsx:33-35 | the recent list holds `min(3, n)` of the fetched bounties, newest first, and none left out is newer than one chosen |
| Navbar.ActivityOf | src/component/Navbar/Navbar.tsx:36-40 | a row says 'created' and keeps the authority and title when present, with 'Unknown' and 'Untitled Bounty' otherwise |
| Navbar.Activities | src/component/Navbar/Navbar.tsx:36-40 | one row per chosen bounty, in order |
| Navbar.Load | src/component/Navbar/Navbar.tsx:19-51 | no program resets to 0 and no rows; a failed fetch keeps the state; a fetch sets the count before sorting, so a throwing sort keeps the old rows; otherwise the rows are the three newest |
| Navbar.DisplayActivity | src/component/Navbar/Navbar.tsx:58-74 | the hard-coded rows while loading or with no activity, and the recent activity otherwise |
| Navbar.DisplayCount | src/component/Navbar/Navbar.tsx:76 | '...' exactly while loading, and otherwise the total |
| Navbar.MountShowsPlaceholders | src/component/Navbar/Navbar.tsx:14-16 | on mount the bar shows '...' for the count and the hard-coded rows |
| Navbar.NoProgramShowsFallback | src/component/Navbar/Navbar.tsx:20-25 | without a program the bar shows a count of 0 and the hard-coded rows |
| Navbar.TruncateAddress | src/component/Navbar/Navbar.tsx:53-56 | 'Unknown' exactly for '', and otherwise the three-and-three abbreviation |
| Navbar.FallbackCreatorsAsDisplayed | src/component/Navbar/Navbar.tsx:58-74 | the pre-abbreviated fallback creators are abbreviated again on display: '212...yw' shows as '212....yw' and the other two are unchanged |
| BountyForm.AddLog | src/component/BountyForm.tsx:15-17 | a log line is appended after every earlier line, prefixed with '> ' |
| BountyForm.AddLogs | src/component/BountyForm.tsx:15-17 | several lines are appended in order, with the earlier log kept as a prefix |
| BountyForm.BountyId | src/component/BountyForm.tsx:32 | the id is the first eight characters of the random token |
| BountyForm.Begin | src/component/BountyForm.tsx:19-39 | without a key, connection or program only an error line is logged; otherwise the form turns busy and `createBounty` is sent to the address derived from `["bounty", owner, id]` with the five fields |
| BountyForm.Settle | src/component/BountyForm.tsx:41-68 | the log only grows; the four fields are reset on confirmation and kept on failure; the busy flag is cleared either way |
| BountyForm.CreateKeepsLog | src/component/BountyForm.tsx:19-68 | a whole run keeps the earlier log as a strict prefix, ends not busy, and keeps the button disabled while in flight |
| BountyForm.NotReadyLogsError | src/component/BountyForm.tsx:20-24 | without a ready wallet exactly one line is logged, it renders as an error, nothing else changes and nothing is sent |
| BountyForm.RejectedLogsError | src/component/BountyForm.tsx:56-65 | a rejected call appends an error line right after the earlier lines, for an `Error` and for any other thrown value |
| BountyForm.FailureLogsError | src/component/BountyForm.tsx:56-65 | a failed transaction logs an error line right after the lines logged before the `await`, and keeps the four fields |
| ProfileForm.Begin | src/component/Profile/page.tsx:11-26 | without a key or program nothing happens; otherwise the form turns busy and `createProfile` is sent to the address derived from `["profile", owner]` with the two fields |
| ProfileForm.Settle | src/component/Profile/page.tsx:27-35 | both fields are cleared on confirmation and kept on failure; the busy flag is cleared either way |
| ProfileForm.CreateEffect | src/component/Profile/page.tsx:11-36 | a whole run: nothing without a key or program; otherwise the button is disabled in flight, and afterwards the form is cleared or kept according to the outcome |
| ProfileForm.GuardsAgreeUnderProvider | src/component/Profile/page.tsx:12 | this guard omits the connection check the bounty form makes, but under the program context both accept the same sessions |

## Left out

- I/O and time: the network, the wallet adapter, transaction signing and
  program-derived address computation are external. Fetches and `.rpc()`
  outcomes are parameters, and transactions carry their seed tuple instead
  of the derived address.
- The random token behind the bounty id (`uuidv4()`) is a parameter. So is
  the derived address that the create-bounty log line abbreviates.
- React itself is not modelled: effects, re-render scheduling, the
  interleaving of concurrent async actions, and the loading screens
  between `Begin` and `Settle`. Each `Load` models the state the effect
  settles on.
- `alert`, `console` output and navigation (`navigate`, `Link`) have no
  effect on the modelled state.
- Locale formatting (`toLocaleDateString`, `toLocaleString`) is not
  modelled. `DateText` and `CountText` record only which value is
  formatted.
- Floating-point numbers: a JS number is an integer or NaN. Fractional
  likes, fractional bumps and the `timestamp * 1000` date arithmetic are
  not modelled.
- BountyList.Normalise: `likes` and `bump` are kept as exact integers.
  JavaScript's `Number(...)` rounds a value of 2^53 or more to the
  nearest double, so for such counts the displayed value can differ.
  Only `createdAt` goes through bn.js's `toNumber()`, whose throw at
  2^53 is modelled.
- ViewBounty.SettleLike: the optimistic `(prev.likes || 0) + 1` is exact
  integer addition. In JavaScript, a count of 2^53 or more does not move
  by one, because the next integer is not a double.
- The list's `BountyErrorBoundary` and the image `onError` swap happen at
  render time in the browser and are not modelled.
- The `'Invalid address'` branch of the list's and detail view's
  `truncateAddress` is not modelled. An address is its base58 text, and
  producing that text does not fail.
- `new PublicKey(bountyId)` rejecting a malformed route id is not
  modelled separately. It happens inside the same `try` as the fetch or
  the call, so it is one more way for that `Result` or `Rpc` to fail.
- Dashboard.Decide: verify and disqualify first fetch the solution account
  and then send the transaction. Both steps are folded into one `Rpc`
  outcome, and the bounty account passed along is not modelled.
- Dashboard.Load: the dashboard copies the selected bounties with
  `Number(likes)` and `Number(createdAt)` and formats their dates. The
  model keeps the raw accounts, and that display conversion is not
  modelled.
- Dashboard.TruncateAddress: the `PublicKey` branch of the argument is not
  modelled, because addresses are already their text.
- Dashboard.DescriptionPreview: text is a sequence of Unicode scalar
  values, while JavaScript's `length` and `slice` count UTF-16 code units.
  The two agree only on text without characters outside the Basic
  Multilingual Plane, such as emoji; for other text the model may keep
  more characters, and it never splits a surrogate pair.
- BountyForm.Begin: the same scalar-versus-code-unit difference applies to
  the `substring(0, 20)` of the description in the log line. The
  addresses, signatures and the `uuidv4()` token that the other cuts
  apply to are ASCII, so they are unaffected.
- ProgramContext.SameDepsKeepProgram: dependencies are compared by value.
  React compares `wallet.publicKey` by object identity, so a new
  `PublicKey` object with the same text would re-run the effect and build
  a new client, which this model does not.
- Navbar.SortDescending: ties keep input order, as JavaScript's stable
  sort does. Insertion at the first smaller key implements this, but no
  contract states it.
- The landing page, the home page, the call-to-action, routing and the
  build configuration are not part of this model.

=== FILE: bounty_form.dfy ===
/** The create-bounty form (src/component/BountyForm.tsx): its four fields,
    its busy flag and its append-only console log. `createBounty` is split at
    its `await`: `Begin` is the synchronous part (guard, log lines, id and
    seeds, the transaction to send) and `Settle` what happens once the call
    resolves. The random token the id is cut from and the external address
    derivation are parameters. */
module BountyForm {
  import opened Js
  import opened Ledger

  datatype Form = Form(
    loading: bool,
    title: string,
    description: string,
    githubRepo: string,
    imageUri: string,
    logs: seq<string>)

  /** `addLog`: append `> message` after every earlier line. */
  function AddLog(logs: seq<string>, message: string): (r: seq<string>)
    ensures |r| == |logs| + 1
    ensures r[..|logs|] == logs
    ensures r[|logs|] == "> " + message
  {
    logs + ["> " + message]
  }

  /** Appending several lines, in order. */
  function AddLogs(logs: seq<string>, messages: seq<string>): (r: seq<string>)
    ensures |r| == |logs| + |messages|
    ensures r[..|logs|] == logs
    ensures forall i :: 0 <= i < |messages| ==> r[|logs| + i] == "> " + messages[i]
    decreases |messages|
  {
    if messages == [] then logs
    else
      var r := AddLogs(AddLog(logs, messages[0]), messages[1..]);
      assert forall i :: 1 <= i < |messages| ==> messages[1..][i - 1] == messages[i];
      r
  }

  /** The guard: a wallet key, a connected wallet and a program. */
  predicate Ready(s: Session)
  {
    s.wallet.publicKey.Some? && s.wallet.connected && s.program.Some?
  }

  /** `uuidv4().substring(0, 8)`. */
  function BountyId(token: string): (id: string)
    ensures |id| == Min(8, |token|)
    ensures id <= token
  {
    SliceFront(token, 8)
  }

  /** `createBounty` up to its `await`. `derive` stands for the external
      address derivation, used here only for the log line. */
  function Begin(f: Form, s: Session, token: string, derive: seq<Seed> -> Address): (r: (Form, Option<Tx>))
    ensures !Ready(s) ==> r == (f.(logs := AddLog(f.logs, "Error: Wallet not connected")), None)
    ensures Ready(s) ==> r.0.loading && r.1.Some?
    ensures r.0.(logs := f.logs, loading := f.loading) == f
    ensures f.logs <= r.0.logs
    ensures r.1.Some? ==>
      var owner := s.wallet.publicKey.value; var id := BountyId(token);
      r.1.value == Tx("createBounty", Derived([Utf8("bounty"), KeyBytes(owner), Utf8(id)]), owner,
                      [id, f.title, f.description, f.githubRepo, f.imageUri])
  {
    if !Ready(s) then (f.(logs := AddLog(f.logs, "Error: Wallet not connected")), None)
    else
      var owner := s.wallet.publicKey.value;
      var id := BountyId(token);
      var seeds := BountySeeds(owner, id);
      var logs := AddLogs(f.logs, [
        "Initializing bounty creation...",
        "Title: " + f.title,
        "Description: " + SliceFront(f.description, 20) + "...",
        "Generated bounty ID: " + id,
        "Derived bounty PDA: " + SliceFront(derive(seeds), 16) + "...",
        "Building transaction..."]);
      (f.(loading := true, logs := logs),
       Some(Tx("createBounty", Derived(seeds), owner, [id, f.title, f.description, f.githubRepo, f.imageUri])))
  }

  /** The lines a thrown value adds: its message for an `Error` (and a
      note about the console when it carries program logs), a generic line otherwise. */
  function FailureLines(e: Failure): seq<string>
  {
    match e
    case ErrorObject(m, hasLogs) =>
      ["Error: " + m] + (if hasLogs then ["Transaction logs: (see console)"] else [])
    case NotAnError => ["Error: Unexpected error occurred"]
  }

  /** `createBounty` after its `await`: on confirmation log the signature and
      reset all four fields; on failure log the error and keep the fields.
      The busy flag is cleared either way. */
  function Settle(f: Form, rpc: Rpc): (r: Form)
    ensures !r.loading
    ensures f.logs < r.logs
    ensures rpc.Confirmed? ==> r.title == "" && r.description == "" && r.githubRepo == "" && r.imageUri == ""
    ensures rpc.Rejected? ==>
      r.title == f.title && r.description == f.description && r.githubRepo == f.githubRepo && r.imageUri == f.imageUri
  {
    match rpc
    case Confirmed(sig) =>
      Form(false, "", "", "", "",
        AddLogs(f.logs, ["Transaction signature: " + SliceFront(sig, 16) + "...", "Bounty created successfully!"]))
    case Rejected(e) =>
      f.(loading := false, logs := AddLogs(f.logs, FailureLines(e)))
  }

  function Create(f: Form, s: Session, token: string, derive: seq<Seed> -> Address, rpc: Rpc): (Form, Option<Tx>)
  {
    var (started, tx) := Begin(f, s, token, derive);
    if tx.None? then (started, None) else (Settle(started, rpc), tx)
  }

  /** A log line renders in the error colour when it mentions 'Error'. */
  predicate IsErrorLine(line: string)
  {
    Includes(line, "Error")
  }

  /** The submit button is disabled while busy. */
  predicate Clickable(f: Form)
  {
    !f.loading
  }

  /** Every run of `createBounty` keeps the earlier log lines in place and in
      order, and leaves the form not busy; while the call is in flight the
      button cannot be pressed again. */
  lemma CreateKeepsLog(f: Form, s: Session, token: string, derive: seq<Seed> -> Address, rpc: Rpc)
    requires !f.loading
    ensures var r := Create(f, s, token, derive, rpc).0; f.logs < r.logs && !r.loading
    ensures Ready(s) ==> !Clickable(Begin(f, s, token, derive).0)
  {
  }

  /** Without a ready wallet the form logs one error line, changes nothing
      else and sends nothing. */
  lemma {:induction false} NotReadyLogsError(f: Form, s: Session, token: string, derive: seq<Seed> -> Address, rpc: Rpc)
    requires !Ready(s)
    ensures var (r, tx) := Create(f, s, token, derive, rpc);
      && tx.None?
      && r.(logs := f.logs) == f
      && |r.logs| == |f.logs| + 1
      && IsErrorLine(r.logs[|f.logs|])
  {
    var r := Create(f, s, token, derive, rpc).0;
    assert r.logs[|f.logs|] == "> " + "Error: Wallet not connected";
    IncludesAfterPrefix("> ", "Error", ": Wallet not connected");
    assert "> " + "Error" + ": Wallet not connected" == "> " + "Error: Wallet not connected";
  }

  /** A rejected call adds an error line right after the earlier lines. */
  lemma {:induction false} RejectedLogsError(f: Form, e: Failure)
    ensures var r := Settle(f, Rejected(e));
      |r.logs| > |f.logs| && IsErrorLine(r.logs[|f.logs|])
  {
    var lines := FailureLines(e);
    var r := Settle(f, Rejected(e));
    assert r.logs[|f.logs|] == "> " + lines[0];
    match e
    case ErrorObject(m, _) =>
      IncludesAfterPrefix("> ", "Error", ": " + m);
      assert "> " + "Error" + (": " + m) == "> " + lines[0];
    case NotAnError =>
      IncludesAfterPrefix("> ", "Error", ": Unexpected error occurred");
      assert "> " + "Error" + ": Unexpected error occurred" == "> " + lines[0];
  }

  /** A failed transaction adds an error line right after the lines logged
      before the `await`, and keeps the four fields. */
  lemma {:induction false} FailureLogsError(f: Form, s: Session, token: string, derive: seq<Seed> -> Address, e: Failure)
    requires Ready(s)
    ensures var started := Begin(f, s, token, derive).0;
      var r := Create(f, s, token, derive, Rejected(e)).0;
      && |r.logs| > |started.logs|
      && IsErrorLine(r.logs[|started.logs|])
      && r.(logs := f.logs, loading := f.loading) == f
  {
    var (started, tx) := Begin(f, s, token, derive);
    assert tx.Some?;
    assert Create(f, s, token, derive, Rejected(e)).0 == Settle(started, Rejected(e));
    RejectedLogsError(started, e);
  }
}

=== FILE: bounty_list.dfy ===
/** The all-bounties list view (src/component/fetchallbounties.tsx): the
    fetch guard, normalisation of each fetched account into a display record
    whose every field has a default, the per-item placeholder for an account
    that fails to normalise, and the card each entry is rendered as. The
    detail view normalises with the very same rules and uses these
    definitions. */
module BountyList {
  import opened Js
  import opened Ledger

  /** The image shown when a bounty has no image link. */
  const FallbackImage: string := "data:image/svg+xml;base64,PHN2ZyB4bWxucz0iaHR0cDovL3d3dy53My5vcmcvMjAwMC9zdmciIHdpZHRoPSIzMDAiIGhlaWdodD0iMTUwIiB2aWV3Qm94PSIwIDAgMzAwIDE1MCIgZmlsbD0iI2VlZWVlZSI+PHJlY3Qgd2lkdGg9IjMwMCIgaGVpZ2h0PSIxNTAiLz48dGV4dCB4PSI1MCUiIHk9IjUwJSIgZm9udC1mYW1pbHk9IkFyaWFsIiBmb250LXNpemU9IjE0IiB0ZXh0LWFuY2hvcj0ibWlkZGxlIiBhbGlnbm1lbnQtYmFzZWxpbmU9Im1pZGRsZSIgZmlsbD0iIzY2NiI+Tm8gSW1hZ2UgQXZhaWxhYmxlPC90ZXh0Pjwvc3ZnPg=="

  /** A normalised bounty: every string and number has a value. */
  datatype BountyView = BountyView(
    authority: Option<Address>,
    bountyId: string,
    title: string,
    description: string,
    githubRepo: string,
    imageUri: string,
    likes: int,
    createdAt: int,
    bump: int)

  /** The shape normalisation guarantees: the id and title defaults are
      non-empty, and the creation time is a safe JS integer. */
  ghost predicate Normal(v: BountyView)
  {
    && v.bountyId != ""
    && v.title != ""
    && -SafeBound < v.createdAt < SafeBound
  }

  /** `x?.toString() || 'N/A'`, `|| 'Untitled'`, `|| ''` for the strings,
      `Number(x) || 0` for likes and bump, `x?.toNumber() || 0` for the
      creation time; only the creation time's conversion can throw. */
  function Normalise(a: BountyAccount): (r: Result<BountyView>)
    ensures r.Thrown? <==> BigToNumber(a.createdAt).Thrown?
    ensures r.Ok? ==> Normal(r.value) && r.value.authority == a.authority
  {
    match BigToNumber(a.createdAt)
    case Thrown(m) => Thrown(m)
    case Ok(created) =>
      Ok(BountyView(
        a.authority,
        StringOr(a.bountyId, "N/A"),
        StringOr(a.title, "Untitled"),
        StringOr(a.description, ""),
        StringOr(a.githubRepo, ""),
        StringOr(a.imageUri, ""),
        OrZero(ToNumber(a.likes)),
        if created.Some? then OrZero(Int(created.value)) else 0,
        OrZero(ToNumber(a.bump))))
  }

  /** Field by field: a present, non-empty string is kept and a missing or
      empty one takes its default; a number that is present and not NaN is
      kept and otherwise becomes 0. */
  lemma NormaliseDefaults(a: BountyAccount)
    requires Normalise(a).Ok?
    ensures var v := Normalise(a).value;
      && (if a.bountyId.Some? && a.bountyId.value != "" then v.bountyId == a.bountyId.value else v.bountyId == "N/A")
      && (if a.title.Some? && a.title.value != "" then v.title == a.title.value else v.title == "Untitled")
      && (if a.description.Some? then v.description == a.description.value else v.description == "")
      && (if a.githubRepo.Some? then v.githubRepo == a.githubRepo.value else v.githubRepo == "")
      && (if a.imageUri.Some? then v.imageUri == a.imageUri.value else v.imageUri == "")
      && (if a.likes.Some? && a.likes.value.Int? then v.likes == a.likes.value.n else v.likes == 0)
      && (if a.createdAt.Big? then v.createdAt == a.createdAt.value else v.createdAt == 0)
      && (if a.bump.Some? && a.bump.value.Int? then v.bump == a.bump.value.n else v.bump == 0)
  {
  }

  /** The raw account that holds exactly the fields of a display record. */
  function Raw(v: BountyView): BountyAccount
  {
    BountyAccount(v.authority, Some(v.bountyId), Some(v.title), Some(v.description),
      Some(v.githubRepo), Some(v.imageUri), Some(Int(v.likes)), Big(v.createdAt), Some(Int(v.bump)))
  }

  /** Normalisation leaves a normal record alone: reading a display record
      back as an account and normalising it gives the record itself. */
  lemma NormaliseRoundTrip(v: BountyView)
    requires Normal(v)
    ensures Normalise(Raw(v)) == Ok(v)
  {
  }

  /** Hence normalisation is idempotent. */
  lemma NormaliseIdempotent(a: BountyAccount)
    requires Normalise(a).Ok?
    ensures Normalise(Raw(Normalise(a).value)) == Normalise(a)
  {
    NormaliseRoundTrip(Normalise(a).value);
  }

  /** A list entry: a normalised bounty, or the placeholder for one that
      failed to normalise (its title 'Invalid Bounty Data', its description
      'Could not parse this bounty', every other field undefined). */
  datatype Entry = Formatted(publicKey: Address, account: BountyView) | Invalid(publicKey: Address)

  /** The per-item `try`/`catch` of the list's map. */
  function FormatItem(item: BountyItem): (e: Entry)
    ensures e.publicKey == item.publicKey
    ensures e.Invalid? <==> Normalise(item.account).Thrown?
    ensures e.Formatted? ==> Normal(e.account) && e.account.authority == item.account.authority
    ensures e.Formatted? ==> e.account == Normalise(item.account).value
  {
    match Normalise(item.account)
    case Ok(v) => Formatted(item.publicKey, v)
    case Thrown(_) => Invalid(item.publicKey)
  }

  /** Formatting the whole fetched list: one entry per account, in order,
      each keeping its account's address; a bad account never aborts the list. */
  function FormatAll(items: seq<BountyItem>): (r: seq<Entry>)
    ensures |r| == |items|
    ensures forall i :: 0 <= i < |items| ==> r[i].publicKey == items[i].publicKey
    ensures forall i :: 0 <= i < |items| ==> (r[i].Invalid? <==> Normalise(items[i].account).Thrown?)
    ensures forall i :: 0 <= i < |items| ==> r[i] == FormatItem(items[i])
  {
    seq(|items|, i requires 0 <= i < |items| => FormatItem(items[i]))
  }

  /** The fetch guard: no program reports 'Program not initialized', a
      program without a connected wallet 'Wallet not connected'. */
  function Guard(s: Session): (e: Option<string>)
    ensures e.Some? <==> s.program.None? || !s.wallet.connected
    ensures e == Some("Program not initialized") <==> s.program.None?
    ensures e == Some("Wallet not connected") <==> s.program.Some? && !s.wallet.connected
  {
    if s.program.None? then Some("Program not initialized")
    else if !s.wallet.connected then Some("Wallet not connected")
    else None
  }

  /** What the view settles on after loading. */
  datatype ListView = Failed(error: string) | Listed(entries: seq<Entry>)

  /** Loading the list: `fetched` is the outcome of `program.account.bounty.all()`,
      consulted only when the guard passes. */
  function Load(s: Session, fetched: Result<seq<BountyItem>>): (v: ListView)
    ensures Guard(s).Some? ==> v == Failed(Guard(s).value)
    ensures Guard(s).None? && fetched.Thrown? ==> v == Failed("Failed to fetch bounties: " + fetched.message)
    ensures Guard(s).None? && fetched.Ok? ==> v == Listed(FormatAll(fetched.value))
    ensures v.Listed? ==> Guard(s).None? && fetched.Ok? && |v.entries| == |fetched.value|
  {
    if Guard(s).Some? then Failed(Guard(s).value)
    else match fetched
      case Thrown(m) => Failed("Failed to fetch bounties: " + m)
      case Ok(items) => Listed(FormatAll(items))
  }

  /** A rendered timestamp: 'N/A', or a locale-formatted date of the given
      seconds (the locale formatting itself is not modelled). */
  datatype DateText = NotAvailable | LocaleDate(seconds: int)

  /** `formatDate`: 'N/A' for an undefined, zero or NaN timestamp. */
  function FormatDate(ts: Option<Number>): (d: DateText)
    ensures d.NotAvailable? <==> ts.None? || ts.value == NaN || ts.value == Int(0)
    ensures d.LocaleDate? ==> ts == Some(Int(d.seconds))
  {
    if ts.None? || !Truthy(ts.value) then NotAvailable else LocaleDate(ts.value.n)
  }

  /** `truncateAddress` of this view: 'Unknown' for no address, otherwise the
      first four and last four characters around '...'. */
  function TruncateAddress(a: Option<Address>): (r: string)
    ensures a.None? <==> r == "Unknown"
    ensures a.Some? ==> r == SliceFront(a.value, 4) + "..." + SliceBack(a.value, 4)
  {
    if a.None? then "Unknown"
    else
      var r := Truncate(a.value, 4);
      assert r[Min(4, |a.value|)] == '.';
      assert '.' !in "Unknown";
      r
  }

  /** What one card shows. */
  datatype Card = Card(
    image: string,
    title: string,
    id: string,
    description: string,
    owner: string,
    repoLink: Option<string>,
    likes: int,
    created: DateText)

  /** The card an entry renders as, with the card's own fallbacks
      ('Untitled Bounty', 'N/A', 'No description provided', `likes ?? 0`). */
  function CardOf(e: Entry): Card
  {
    match e
    case Formatted(_, v) =>
      Card(
        if v.imageUri != "" then v.imageUri else FallbackImage,
        if v.title != "" then v.title else "Untitled Bounty",
        if v.bountyId != "" then v.bountyId else "N/A",
        if v.description != "" then v.description else "No description provided",
        TruncateAddress(v.authority),
        if v.githubRepo != "" then Some(v.githubRepo) else None,
        v.likes,
        FormatDate(Some(Int(v.createdAt))))
    case Invalid(_) =>
      Card(FallbackImage, "Invalid Bounty Data", "N/A", "Could not parse this bounty",
        TruncateAddress(None), None, 0, FormatDate(None))
  }

  /** A normalised entry's card shows its own title and id: the card's
      'Untitled Bounty' fallback can never be reached after normalisation.
      Its image is the image link when there is one and the fallback image
      otherwise, and its date is 'N/A' exactly when the creation time is 0. */
  lemma FormattedCard(item: BountyItem)
    requires FormatItem(item).Formatted?
    ensures var e := FormatItem(item); var c := CardOf(e);
      && c.title == e.account.title
      && c.id == e.account.bountyId
      && (c.image == FallbackImage <==> item.account.imageUri.None? || item.account.imageUri.value in {"", FallbackImage})
      && (c.created.NotAvailable? <==> item.account.createdAt in {Absent, Big(0)})
  {
  }

  /** The placeholder's card: fallback image, 'Invalid Bounty Data', id 'N/A',
      owner 'Unknown', no repository link, 0 likes, date 'N/A'. */
  lemma InvalidCard(item: BountyItem)
    requires FormatItem(item).Invalid?
    ensures CardOf(FormatItem(item)) ==
      Card(FallbackImage, "Invalid Bounty Data", "N/A", "Could not parse this bounty", "Unknown", None, 0, NotAvailable)
    ensures item.account.createdAt.Big?
  {
  }

  /** Every card has an image source: a normalised entry's own image link
      when it has one, and the fallback image otherwise. */
  lemma CardImage(e: Entry)
    ensures CardOf(e).image != ""
    ensures e.Formatted? && e.account.imageUri != "" ==> CardOf(e).image == e.account.imageUri
    ensures e.Invalid? || e.account.imageUri == "" ==> CardOf(e).image == FallbackImage
  {
  }
}

=== FILE: dashboard.dfy ===
/** The owner dashboard (src/component/Dashboard/page.tsx): selection of the
    wallet's own bounties, of the solutions submitted to them and of the
    solutions the wallet submitted; the status tag read from a solution's
    tagged status object, its colour and the review controls it enables; the
    optimistic status patches after verify and disqualify; and the address
    and description abbreviations. */
module Dashboard {
  import opened Js
  import opened Ledger

  /** The closed enumeration behind the tagged status object. */
  datatype Status = Pending | Verified | Disqualified

  /** The keys of the tagged object the client decodes for a status. */
  function KeysOf(st: Status): seq<string>
  {
    match st
    case Pending => ["pending"]
    case Verified => ["verified"]
    case Disqualified => ["disqualified"]
  }

  /** `Object.keys(status)[0]`: undefined for an object without keys. */
  function Tag(keys: seq<string>): Option<string>
  {
    if keys == [] then None else Some(keys[0])
  }

  /** The status a key list denotes, read from its first key. */
  function Parse(keys: seq<string>): (r: Option<Status>)
    ensures r.Some? <==> Tag(keys) in {Some("pending"), Some("verified"), Some("disqualified")}
  {
    match Tag(keys)
    case Some("pending") => Some(Pending)
    case Some("verified") => Some(Verified)
    case Some("disqualified") => Some(Disqualified)
    case _ => None
  }

  /** Reading back the keys written for a status gives that status. */
  lemma ParseKeysOf(st: Status)
    ensures Parse(KeysOf(st)) == Some(st)
    ensures Tag(KeysOf(st)) != Some("pending") <==> st != Pending
  {
  }

  datatype Colour = Yellow | Green | Red

  /** The tag's colour: pending yellow, verified green, anything else red. */
  function TagColour(keys: seq<string>): (c: Colour)
    ensures c == Yellow <==> Parse(keys) == Some(Pending)
    ensures c == Green <==> Parse(keys) == Some(Verified)
    ensures c == Red <==> Parse(keys) == Some(Disqualified) || Parse(keys).None?
  {
    if Tag(keys) == Some("pending") then Yellow
    else if Tag(keys) == Some("verified") then Green
    else Red
  }

  /** The verify and disqualify controls are offered only for a pending solution. */
  predicate OffersReview(sol: Solution)
  {
    Tag(sol.status) == Some("pending")
  }

  /** The review controls appear exactly where the tag is yellow. */
  lemma ReviewIffYellow(sol: Solution)
    ensures OffersReview(sol) <==> TagColour(sol.status) == Yellow
  {
  }

  /** The load guard. */
  function Guard(s: Session): (e: Option<string>)
    ensures e.Some? <==> s.program.None? || !s.wallet.connected || s.wallet.publicKey.None?
    ensures e.Some? ==> e.value == "Please connect your wallet"
  {
    if s.program.None? || !s.wallet.connected || s.wallet.publicKey.None? then Some("Please connect your wallet")
    else None
  }

  /** The message `b.account.authority.toBase58()` throws for a missing authority. */
  const MissingAuthority: string := "Cannot read properties of undefined (reading 'toBase58')"

  predicate OwnedBy(b: BountyItem, key: Address)
  {
    b.account.authority == Some(key)
  }

  /** `userBounties`: the fetched bounties whose authority is the wallet's
      key, in fetch order. The filter reads every bounty's authority, so one
      bounty without an authority makes it throw. */
  function UserBounties(all: seq<BountyItem>, key: Address): (r: Result<seq<BountyItem>>)
    ensures r.Thrown? <==> exists i :: 0 <= i < |all| && all[i].account.authority.None?
    ensures r.Ok? ==> forall b :: b in r.value <==> b in all && b.account.authority == Some(key)
  {
    if exists i :: 0 <= i < |all| && all[i].account.authority.None? then Thrown(MissingAuthority)
    else Ok(Filter(all, b => OwnedBy(b, key)))
  }

  /** The selection keeps the fetch order: selecting from two halves and
      joining the results is selecting from the whole. */
  lemma UserBountiesKeepOrder(xs: seq<BountyItem>, ys: seq<BountyItem>, key: Address)
    requires UserBounties(xs + ys, key).Ok?
    ensures UserBounties(xs, key).Ok? && UserBounties(ys, key).Ok?
    ensures UserBounties(xs + ys, key).value == UserBounties(xs, key).value + UserBounties(ys, key).value
  {
    forall i | 0 <= i < |xs|
      ensures xs[i].account.authority.Some?
    {
      assert (xs + ys)[i] == xs[i];
    }
    forall i | 0 <= i < |ys|
      ensures ys[i].account.authority.Some?
    {
      assert (xs + ys)[|xs| + i] == ys[i];
    }
    FilterAppend(xs, ys, b => OwnedBy(b, key));
  }

  /** `userBounties.some(b => s.bounty === b.publicKey)`. */
  predicate ToOneOf(s: Solution, mine: seq<BountyItem>)
  {
    exists i :: 0 <= i < |mine| && mine[i].publicKey == s.bounty
  }

  /** `othersSolutions`: solutions whose bounty is one of the wallet's bounties. */
  function ReceivedSolutions(all: seq<Solution>, mine: seq<BountyItem>): (r: seq<Solution>)
    ensures forall s :: s in r <==> s in all && exists b :: b in mine && b.publicKey == s.bounty
  {
    var r := Filter(all, s => ToOneOf(s, mine));
    assert forall s :: ToOneOf(s, mine) <==> exists b :: b in mine && b.publicKey == s.bounty by {
      forall s ensures ToOneOf(s, mine) ==> exists b :: b in mine && b.publicKey == s.bounty {
        if ToOneOf(s, mine) {
          var i :| 0 <= i < |mine| && mine[i].publicKey == s.bounty;
          assert mine[i] in mine;
        }
      }
    }
    r
  }

  /** `mySolutions`: solutions the wallet submitted, to any bounty. */
  function SubmittedSolutions(all: seq<Solution>, key: Address): (r: seq<Solution>)
    ensures forall s :: s in r <==> s in all && s.authority == key
  {
    Filter(all, (s: Solution) => s.authority == key)
  }

  /** Both solution lists keep the fetch order: selecting from two halves
      and joining the results is selecting from the whole. */
  lemma ReceivedKeepOrder(xs: seq<Solution>, ys: seq<Solution>, mine: seq<BountyItem>)
    ensures ReceivedSolutions(xs + ys, mine) == ReceivedSolutions(xs, mine) + ReceivedSolutions(ys, mine)
  {
    FilterAppend(xs, ys, s => ToOneOf(s, mine));
  }

  lemma SubmittedKeepOrder(xs: seq<Solution>, ys: seq<Solution>, key: Address)
    ensures SubmittedSolutions(xs + ys, key) == SubmittedSolutions(xs, key) + SubmittedSolutions(ys, key)
  {
    FilterAppend(xs, ys, (s: Solution) => s.authority == key);
  }

  /** What the dashboard settles on after loading. */
  datatype View =
    | Failed(error: string)
    | Ready(profile: Option<Profile>, bounties: seq<BountyItem>, received: seq<Solution>, submitted: seq<Solution>)

  /** The `profile` state after one run of the loading effect, given the
      state `prev` before it: only a successful fetch at the address derived
      from `["profile", owner]` sets it; a failed fetch (and the guard) leave
      it as it was, and nothing ever clears it. */
  function ProfileAfter(s: Session, prev: Option<Profile>, profile: Result<Profile>): (r: Option<Profile>)
    ensures Guard(s).None? && profile.Ok? ==> r == Some(profile.value)
    ensures Guard(s).Some? || profile.Thrown? ==> r == prev
    ensures prev.Some? ==> r.Some?
  {
    if Guard(s).None? && profile.Ok? then Some(profile.value) else prev
  }

  /** Loading the dashboard, with `prev` the profile shown before this run of
      the effect: the profile, all bounties, all solutions. A failed profile
      fetch keeps the previous profile; a failure of either list fetch, or of
      the bounty selection, fails the view with the thrown message. */
  function Load(s: Session, prev: Option<Profile>, profile: Result<Profile>, bounties: Result<seq<BountyItem>>,
                solutions: Result<seq<Solution>>): (v: View)
    ensures Guard(s).Some? ==> v == Failed(Guard(s).value)
    ensures v.Ready? <==>
      Guard(s).None? && bounties.Ok? && solutions.Ok? && UserBounties(bounties.value, s.wallet.publicKey.value).Ok?
    ensures v.Ready? ==> v.profile == (if profile.Ok? then Some(profile.value) else prev)
    ensures v.Ready? ==> v.bounties == UserBounties(bounties.value, s.wallet.publicKey.value).value
    ensures v.Ready? ==> v.received == ReceivedSolutions(solutions.value, v.bounties)
    ensures v.Ready? ==> v.submitted == SubmittedSolutions(solutions.value, s.wallet.publicKey.value)
    ensures v.Ready? ==> forall b :: b in v.bounties <==>
      b in bounties.value && b.account.authority == s.wallet.publicKey
    ensures v.Ready? ==> forall x :: x in v.submitted <==>
      x in solutions.value && Some(x.authority) == s.wallet.publicKey
    ensures v.Ready? ==> forall x :: x in v.received <==>
      x in solutions.value && exists b :: b in v.bounties && b.publicKey == x.bounty
    ensures Guard(s).None? && bounties.Thrown? ==> v == Failed("Failed to fetch dashboard data: " + bounties.message)
    ensures Guard(s).None? && bounties.Ok? && UserBounties(bounties.value, s.wallet.publicKey.value).Thrown? ==>
      v == Failed("Failed to fetch dashboard data: " + UserBounties(bounties.value, s.wallet.publicKey.value).message)
    ensures Guard(s).None? && bounties.Ok? && UserBounties(bounties.value, s.wallet.publicKey.value).Ok? && solutions.Thrown? ==>
      v == Failed("Failed to fetch dashboard data: " + solutions.message)
  {
    if Guard(s).Some? then Failed(Guard(s).value)
    else
      var key := s.wallet.publicKey.value;
      var shown := ProfileAfter(s, prev, profile);
      match bounties
      case Thrown(m) => Failed("Failed to fetch dashboard data: " + m)
      case Ok(all) =>
        match UserBounties(all, key)
        case Thrown(m) => Failed("Failed to fetch dashboard data: " + m)
        case Ok(mine) =>
          match solutions
          case Thrown(m) => Failed("Failed to fetch dashboard data: " + m)
          case Ok(sols) => Ready(shown, mine, ReceivedSolutions(sols, mine), SubmittedSolutions(sols, key))
  }

  /** The two solution lists are independent: a wallet's own solution to one
      of its own bounties appears in both. */
  lemma SolutionInBothLists(s: Session, prev: Option<Profile>, profile: Result<Profile>, bounties: Result<seq<BountyItem>>,
                            solutions: Result<seq<Solution>>, sol: Solution, b: BountyItem)
    requires Load(s, prev, profile, bounties, solutions).Ready?
    requires sol in solutions.value && b in bounties.value
    requires s.wallet.publicKey == Some(sol.authority)
    requires b.account.authority == s.wallet.publicKey && b.publicKey == sol.bounty
    ensures sol in Load(s, prev, profile, bounties, solutions).received
    ensures sol in Load(s, prev, profile, bounties, solutions).submitted
  {
    assert b in Load(s, prev, profile, bounties, solutions).bounties;
  }

  /** The effect re-runs when the wallet changes, but the profile state
      is never reset: after wallet `a` loaded its profile, a switch to a
      wallet `b` whose profile fetch fails shows `a`'s profile on `b`'s
      dashboard. */
  lemma ProfileSurvivesWalletSwitch(sa: Session, sb: Session, pa: Profile, failure: string,
                                    bounties: Result<seq<BountyItem>>, solutions: Result<seq<Solution>>)
    requires Guard(sa).None? && sa.wallet.publicKey == Some(pa.authority)
    requires Load(sb, ProfileAfter(sa, None, Ok(pa)), Thrown(failure), bounties, solutions).Ready?
    ensures ProfileAfter(sb, ProfileAfter(sa, None, Ok(pa)), Thrown(failure)) == Some(pa)
    ensures Load(sb, ProfileAfter(sa, None, Ok(pa)), Thrown(failure), bounties, solutions).profile == Some(pa)
    ensures sb.wallet.publicKey != sa.wallet.publicKey ==>
      Some(Load(sb, ProfileAfter(sa, None, Ok(pa)), Thrown(failure), bounties, solutions).profile.value.authority)
        != sb.wallet.publicKey
  {
  }

  /** `prev.map(s => s.publicKey === key ? { ...s, status } : s)`. */
  function SetStatus(list: seq<Solution>, key: Address, status: seq<string>): (r: seq<Solution>)
    ensures |r| == |list|
    ensures forall i :: 0 <= i < |list| && list[i].publicKey == key ==> r[i] == list[i].(status := status)
    ensures forall i :: 0 <= i < |list| && list[i].publicKey != key ==> r[i] == list[i]
  {
    seq(|list|, i requires 0 <= i < |list| =>
      if list[i].publicKey == key then list[i].(status := status) else list[i])
  }

  /** The guard of `verifySolution` and `disqualifySolution`. */
  predicate ReviewReady(s: Session)
  {
    s.program.Some? && s.wallet.publicKey.Some?
  }

  /** A review decision on one received solution, with the outcome of its
      calls (the solution fetch and the `.rpc()`, either of which may throw). */
  datatype Review = Review(verdict: Status, solution: Address, rpc: Rpc)

  /** `verifySolution` (verdict Verified) or `disqualifySolution` (verdict
      Disqualified): the transaction sent and the list after it resolves. */
  function Decide(list: seq<Solution>, s: Session, r: Review): (out: (seq<Solution>, Option<Tx>))
    requires r.verdict != Pending
    ensures !ReviewReady(s) ==> out == (list, None)
    ensures ReviewReady(s) ==>
      out.1 == Some(Tx(if r.verdict == Verified then "verifySolution" else "disqualifySolution",
                       At(r.solution), s.wallet.publicKey.value, []))
    ensures ReviewReady(s) && r.rpc.Rejected? ==> out.0 == list
    ensures |out.0| == |list|
    ensures ReviewReady(s) && r.rpc.Confirmed? ==> forall i :: 0 <= i < |list| ==>
      if list[i].publicKey == r.solution then Parse(out.0[i].status) == Some(r.verdict) && out.0[i].(status := []) == list[i].(status := [])
      else out.0[i] == list[i]
  {
    if !ReviewReady(s) then (list, None)
    else
      var tx := Tx(if r.verdict == Verified then "verifySolution" else "disqualifySolution",
                   At(r.solution), s.wallet.publicKey.value, []);
      if r.rpc.Rejected? then (list, Some(tx))
      else (SetStatus(list, r.solution, KeysOf(r.verdict)), Some(tx))
  }

  /** Applying review decisions one after another. */
  function DecideAll(list: seq<Solution>, s: Session, rs: seq<Review>): seq<Solution>
    requires forall i :: 0 <= i < |rs| ==> rs[i].verdict != Pending
    decreases |rs|
  {
    if rs == [] then list else DecideAll(Decide(list, s, rs[0]).0, s, rs[1..])
  }

  /** Within a session a solution of the received list shown as verified or
      disqualified is never shown there as pending again, whatever decisions
      follow; no entry is added or removed, and an entry's address never changes. */
  lemma {:induction false} NeverPendingAgain(list: seq<Solution>, s: Session, rs: seq<Review>)
    requires forall i :: 0 <= i < |rs| ==> rs[i].verdict != Pending
    ensures |DecideAll(list, s, rs)| == |list|
    ensures forall i :: 0 <= i < |list| ==> DecideAll(list, s, rs)[i].publicKey == list[i].publicKey
    ensures forall i :: 0 <= i < |list| && !OffersReview(list[i]) ==> !OffersReview(DecideAll(list, s, rs)[i])
    decreases |rs|
  {
    if rs != [] {
      var next := Decide(list, s, rs[0]).0;
      NeverPendingAgain(next, s, rs[1..]);
    }
  }

  /** A decision taken on the loaded dashboard: it patches the received list
      only (`setOthersSolutions`); the submitted list is left as loaded. */
  function DecideView(v: View, s: Session, r: Review): (out: (View, Option<Tx>))
    requires r.verdict != Pending
    ensures v.Failed? ==> out == (v, None)
    ensures v.Ready? ==> out.1 == Decide(v.received, s, r).1
    ensures v.Ready? ==> out.0.Ready? && out.0.received == Decide(v.received, s, r).0
    ensures v.Ready? ==>
      out.0.profile == v.profile && out.0.bounties == v.bounties && out.0.submitted == v.submitted
  {
    if v.Failed? then (v, None)
    else
      var (received, tx) := Decide(v.received, s, r);
      (v.(received := received), tx)
  }

  /** The submitted list is not patched: when the wallet reviews its own
      solution to its own bounty, the received list shows the verdict while
      the submitted list still shows the solution as pending, in yellow, until
      the dashboard loads again. */
  lemma SubmittedListStaysStale(v: View, s: Session, r: Review, i: nat, j: nat)
    requires v.Ready? && ReviewReady(s) && r.verdict != Pending && r.rpc.Confirmed?
    requires i < |v.received| && j < |v.submitted| && v.received[i] == v.submitted[j]
    requires v.received[i].publicKey == r.solution && OffersReview(v.received[i])
    ensures var w := DecideView(v, s, r).0;
      && Parse(w.received[i].status) == Some(r.verdict) && !OffersReview(w.received[i])
      && w.submitted[j] == v.submitted[j] && TagColour(w.submitted[j].status) == Yellow
  {
    ParseKeysOf(r.verdict);
  }

  /** Verify and disqualify raise no busy flag: the transaction a click sends
      depends only on the session and the decision, never on an earlier click
      still in flight, so two clicks send two transactions. */
  lemma ReviewHasNoBusyFlag(v1: View, v2: View, s: Session, r: Review)
    requires v1.Ready? && v2.Ready? && r.verdict != Pending
    ensures DecideView(v1, s, r).1 == DecideView(v2, s, r).1
    ensures ReviewReady(s) ==> DecideView(v1, s, r).1.Some?
  {
  }

  /** `truncateAddress`: first four and last four characters around '...',
      with no guard, so the empty string gives just '...'. */
  function TruncateAddress(a: string): (r: string)
    ensures a == "" ==> r == "..."
    ensures |a| >= 4 ==> |r| == 11 && r[..4] == a[..4] && r[4..7] == "..." && r[7..] == a[|a| - 4..]
    ensures |a| < 4 ==> r == a + "..." + a
  {
    var r := Truncate(a, 4);
    assert |a| < 4 ==> r == a + "..." + a by {
      if |a| < 4 { TruncateShort(a, 4); }
    }
    r
  }

  /** The description preview: its first 100 characters, followed by '...'
      exactly when the description is longer. */
  function DescriptionPreview(d: string): (r: string)
    ensures |d| <= 100 ==> r == d
    ensures |d| > 100 ==> |r| == 103 && r[..100] == d[..100] && r[100..] == "..."
  {
    SliceFront(d, 100) + (if |d| > 100 then "..." else "")
  }
}

=== FILE: js.dfy ===
/** JavaScript value semantics that the components rely on: optional values,
    thrown errors, `Number(x) || 0`, `s || d`, `slice` clamping, `includes`
    and `Array.prototype.filter`. Numbers are integers or NaN. */
module Js {

  /** A value that may be `undefined`. */
  datatype Option<+T> = None | Some(value: T)

  /** The result of code that may throw: a value, or an error with its message. */
  datatype Result<+T> = Ok(value: T) | Thrown(message: string)

  /** A JS number, restricted to integral values and NaN. */
  datatype Number = NaN | Int(n: int)

  function Min(a: int, b: int): int { if a <= b then a else b }
  function Max(a: int, b: int): int { if a <= b then b else a }

  /** `Number(x)` where `x` may be undefined: undefined converts to NaN. */
  function ToNumber(x: Option<Number>): Number
  {
    if x.None? then NaN else x.value
  }

  /** JS truthiness of a number: NaN and 0 are falsy. */
  predicate Truthy(x: Number)
  {
    x.Int? && x.n != 0
  }

  /** `x || 0` on a number. */
  function OrZero(x: Number): int
  {
    if Truthy(x) then x.n else 0
  }

  /** `Number(x) || 0`: the integer `x` holds, or 0 when it is undefined or NaN. */
  lemma NumberOrZero(x: Option<Number>)
    ensures x.Some? && x.value.Int? ==> OrZero(ToNumber(x)) == x.value.n
    ensures x.None? || x.value.NaN? ==> OrZero(ToNumber(x)) == 0
  {
  }

  /** `s?.toString() || d`: the string when present and non-empty, else `d`. */
  function StringOr(s: Option<string>, d: string): string
  {
    if s.Some? && s.value != "" then s.value else d
  }

  /** `s.slice(0, k)` for a non-negative `k`: clamped to the string's length. */
  function SliceFront(s: string, k: nat): (r: string)
    ensures |r| == Min(k, |s|)
    ensures r <= s
  {
    s[..Min(k, |s|)]
  }

  /** `s.slice(-k)`: the last `k` characters, the whole string when it is shorter;
      `slice(-0)` is `slice(0)`, the whole string. */
  function SliceBack(s: string, k: nat): (r: string)
    ensures k > 0 ==> |r| == Min(k, |s|)
    ensures k == 0 ==> r == s
    ensures s[|s| - |r|..] == r
  {
    if k == 0 then s else s[Max(|s| - k, 0)..]
  }

  /** `` `${s.slice(0, k)}...${s.slice(-k)}` ``: the middle-ellipsis abbreviation
      used for addresses throughout the views. */
  function Truncate(s: string, k: nat): (r: string)
    requires k > 0
    ensures |r| == 2 * Min(k, |s|) + 3
    ensures r[..Min(k, |s|)] == s[..Min(k, |s|)]
    ensures r[Min(k, |s|)..Min(k, |s|) + 3] == "..."
    ensures r[Min(k, |s|) + 3..] == s[|s| - Min(k, |s|)..]
  {
    SliceFront(s, k) + "..." + SliceBack(s, k)
  }

  /** A string of at most `k` characters appears twice, around the ellipsis. */
  lemma TruncateShort(s: string, k: nat)
    requires 0 < k && |s| <= k
    ensures Truncate(s, k) == s + "..." + s
  {
    var r := Truncate(s, k);
    assert r[..|s|] == s;
    assert r[|s| + 3..] == s;
    assert r == r[..|s|] + r[|s|..|s| + 3] + r[|s| + 3..];
  }

  /** `s.startsWith(p)`. */
  predicate StartsWith(s: string, p: string)
  {
    |p| <= |s| && s[..|p|] == p
  }

  /** `s.includes(p)`, scanning the start positions from left to right. */
  predicate Includes(s: string, p: string)
    decreases |s|
  {
    StartsWith(s, p) || (|s| > 0 && Includes(s[1..], p))
  }

  /** `p` occurs in `s` at position `i`. */
  ghost predicate OccursAt(s: string, p: string, i: int)
  {
    0 <= i && i + |p| <= |s| && s[i..i + |p|] == p
  }

  /** An occurrence at any position is found by the scan. */
  lemma {:induction false} OccursImpliesIncludes(s: string, p: string, i: nat)
    requires OccursAt(s, p, i)
    ensures Includes(s, p)
    decreases i
  {
    if i == 0 {
      assert s[..|p|] == s[i..i + |p|];
    } else {
      assert s[1..][i - 1..i - 1 + |p|] == s[i..i + |p|];
      OccursImpliesIncludes(s[1..], p, i - 1);
    }
  }

  /** What the scan finds is an occurrence at some position. */
  lemma {:induction false} IncludesImpliesOccurs(s: string, p: string)
    requires Includes(s, p)
    ensures exists i :: OccursAt(s, p, i)
    decreases |s|
  {
    if StartsWith(s, p) {
      assert OccursAt(s, p, 0);
    } else {
      IncludesImpliesOccurs(s[1..], p);
      var i :| OccursAt(s[1..], p, i);
      assert s[i + 1..i + 1 + |p|] == s[1..][i..i + |p|];
      assert OccursAt(s, p, i + 1);
    }
  }

  /** The scanning definition of `includes` agrees with "occurs at some position". */
  lemma {:induction false} IncludesIffOccurs(s: string, p: string)
    ensures Includes(s, p) <==> exists i :: OccursAt(s, p, i)
  {
    if Includes(s, p) {
      IncludesImpliesOccurs(s, p);
    }
    forall i | OccursAt(s, p, i)
      ensures Includes(s, p)
    {
      OccursImpliesIncludes(s, p, i);
    }
  }

  /** A string that starts with `p` after some prefix includes `p`. */
  lemma IncludesAfterPrefix(a: string, p: string, b: string)
    ensures Includes(a + p + b, p)
  {
    var s := a + p + b;
    assert s[|a|..|a| + |p|] == p;
    assert OccursAt(s, p, |a|);
    IncludesIffOccurs(s, p);
  }

  /** `xs.filter(keep)`: the elements `keep` accepts, in their original order. */
  function Filter<T(!new)>(xs: seq<T>, keep: T -> bool): (r: seq<T>)
    ensures |r| <= |xs|
    ensures forall x :: x in r <==> x in xs && keep(x)
  {
    if xs == [] then []
    else if keep(xs[0]) then [xs[0]] + Filter(xs[1..], keep)
    else Filter(xs[1..], keep)
  }

  /** Filtering preserves relative order: it distributes over concatenation. */
  lemma {:induction false} FilterAppend<T(!new)>(xs: seq<T>, ys: seq<T>, keep: T -> bool)
    ensures Filter(xs + ys, keep) == Filter(xs, keep) + Filter(ys, keep)
  {
    if xs == [] {
      assert xs + ys == ys;
    } else {
      assert (xs + ys)[1..] == xs[1..] + ys;
      FilterAppend(xs[1..], ys, keep);
    }
  }
}

=== FILE: ledger.dfy ===
/** The chain-side data every view works with, as the generated client hands
    it over: addresses (as their base58 text), seed tuples for address
    derivation, raw bounty and solution accounts, the wallet and the session
    the program context provides, the transactions a view asks the client to
    send, and the abstract outcome of sending one. Address derivation, signing
    and the network live in external libraries and are not modelled. */
module Ledger {
  import opened Js

  /** A public key, identified by its base58 text. */
  type Address = string

  /** One seed of an address derivation: the UTF-8 bytes of a string
      (`Buffer.from(text)`) or the 32 bytes of a public key (`key.toBuffer()`). */
  datatype Seed = Utf8(text: string) | KeyBytes(key: Address)

  /** `["profile", owner]`. */
  function ProfileSeeds(owner: Address): seq<Seed>
  {
    [Utf8("profile"), KeyBytes(owner)]
  }

  /** `["bounty", owner, bountyId]`. */
  function BountySeeds(owner: Address, bountyId: string): seq<Seed>
  {
    [Utf8("bounty"), KeyBytes(owner), Utf8(bountyId)]
  }

  /** `["solution", bounty, submitter]`. */
  function SolutionSeeds(bounty: Address, submitter: Address): seq<Seed>
  {
    [Utf8("solution"), KeyBytes(bounty), KeyBytes(submitter)]
  }

  /** The three seed schemes never produce the same tuple, and each one
      determines its inputs: distinct inputs give distinct seed tuples. */
  lemma SeedSchemesDistinct(o1: Address, o2: Address, id1: string, id2: string, b1: Address, b2: Address)
    ensures ProfileSeeds(o1) != BountySeeds(o2, id2)
    ensures ProfileSeeds(o1) != SolutionSeeds(b1, o2)
    ensures BountySeeds(o1, id1) != SolutionSeeds(b1, o2)
    ensures ProfileSeeds(o1) == ProfileSeeds(o2) <==> o1 == o2
    ensures BountySeeds(o1, id1) == BountySeeds(o2, id2) <==> o1 == o2 && id1 == id2
    ensures SolutionSeeds(b1, o1) == SolutionSeeds(b2, o2) <==> b1 == b2 && o1 == o2
  {
    if BountySeeds(o1, id1) == BountySeeds(o2, id2) {
      assert BountySeeds(o1, id1)[1] == BountySeeds(o2, id2)[1];
      assert BountySeeds(o1, id1)[2] == BountySeeds(o2, id2)[2];
    }
    if SolutionSeeds(b1, o1) == SolutionSeeds(b2, o2) {
      assert SolutionSeeds(b1, o1)[1] == SolutionSeeds(b2, o2)[1];
      assert SolutionSeeds(b1, o1)[2] == SolutionSeeds(b2, o2)[2];
    }
    if ProfileSeeds(o1) == ProfileSeeds(o2) {
      assert ProfileSeeds(o1)[1] == ProfileSeeds(o2)[1];
    }
    assert ProfileSeeds(o1)[0] != SolutionSeeds(b1, o2)[0];
    assert BountySeeds(o1, id1)[0] != SolutionSeeds(b1, o2)[0];
  }

  /** `2^53`: bn.js `toNumber()` refuses values of this magnitude or more
      ("Number can only safely store up to 53 bits"). */
  const SafeBound: int := 0x20_0000_0000_0000

  /** A 64-bit counter as decoded by the client: a big integer, or absent. */
  datatype Big = Absent | Big(value: int)

  /** `x?.toNumber()`: undefined when absent; throws outside the safe range. */
  function BigToNumber(x: Big): (r: Result<Option<int>>)
    ensures r.Thrown? <==> x.Big? && (x.value >= SafeBound || x.value <= -SafeBound)
    ensures r.Ok? && r.value.Some? ==> x == Big(r.value.value)
    ensures r == Ok(None) <==> x.Absent?
  {
    match x
    case Absent => Ok(None)
    case Big(n) =>
      if -SafeBound < n < SafeBound then Ok(Some(n))
      else Thrown("Number can only safely store up to 53 bits")
  }

  /** A bounty account's fields as the client decodes them; the views read
      every field defensively, as possibly missing. `likes` and `bump` are
      read through `Number(...)`, `createdAt` through `toNumber()`. */
  datatype BountyAccount = BountyAccount(
    authority: Option<Address>,
    bountyId: Option<string>,
    title: Option<string>,
    description: Option<string>,
    githubRepo: Option<string>,
    imageUri: Option<string>,
    likes: Option<Number>,
    createdAt: Big,
    bump: Option<Number>)

  /** An entry of `program.account.bounty.all()`. */
  datatype BountyItem = BountyItem(publicKey: Address, account: BountyAccount)

  /** A solution account, with its status as the key list of the tagged
      object the client decodes (`{ pending: {} }` has keys `["pending"]`). */
  datatype Solution = Solution(
    publicKey: Address,
    bounty: Address,
    authority: Address,
    pullRequestUrl: string,
    submittedAt: int,
    status: seq<string>)

  /** A profile account. */
  datatype Profile = Profile(authority: Address, displayName: string, description: string, bump: int)

  /** The client object `getProgram(wallet)` returns: the signer it is bound
      to, and which run of the provider's effect built it, which stands for
      the object's identity (every call builds a new object). */
  datatype Program = Program(signer: Address, instance: nat)

  /** The wallet adapter's state as the views read it. */
  datatype Wallet = Wallet(connected: bool, publicKey: Option<Address>)

  /** The value the program context provides to every view. */
  datatype Session = Session(program: Option<Program>, wallet: Wallet)

  /** Where a transaction is sent: an address derived from seeds by the
      external derivation, or an address given directly. */
  datatype Target = Derived(seeds: seq<Seed>) | At(address: Address)

  /** A state-changing call a view asks the client to sign and send. */
  datatype Tx = Tx(instruction: string, target: Target, signer: Address, args: seq<string>)

  /** What an awaited `.rpc()` call produced: a confirmed signature, or a
      thrown value (an `Error` with a message, possibly carrying program logs,
      or something that is not an `Error`). */
  datatype Rpc = Confirmed(signature: string) | Rejected(error: Failure)
  datatype Failure = ErrorObject(message: string, hasLogs: bool) | NotAnError
}

=== FILE: navbar.dfy ===
/** The navigation bar's activity strip (src/component/Navbar/Navbar.tsx):
    the bounty count, the three newest bounties by creation time turned into
    activity rows, the hard-coded rows shown while loading or when there is
    no activity, and the three-and-three address abbreviation. */
module Navbar {
  import opened Js
  import opened Ledger

  datatype Activity = Activity(creator: string, action: string, project: string)

  /** The bar's state: `totalBounties`, `recentActivity`, `loading`. */
  datatype State = State(total: nat, recent: seq<Activity>, loading: bool)

  /** The state on mount. */
  function Initial(): State
  {
    State(0, [], true)
  }

  /** `b.account.createdAt?.toNumber() || 0`, which throws for an unsafe value. */
  function CreatedKey(a: BountyAccount): (r: Result<int>)
    ensures r.Thrown? <==> BigToNumber(a.createdAt).Thrown?
    ensures r.Ok? ==> r.value == (if a.createdAt.Big? then a.createdAt.value else 0)
  {
    match BigToNumber(a.createdAt)
    case Thrown(m) => Thrown(m)
    case Ok(n) => Ok(if n.Some? then OrZero(Int(n.value)) else 0)
  }

  /** The sort key of a bounty whose key can be read. */
  function Key(b: BountyItem): int
  {
    if CreatedKey(b.account).Ok? then CreatedKey(b.account).value else 0
  }

  predicate Readable(b: BountyItem)
  {
    CreatedKey(b.account).Ok?
  }

  /** Sorted by a key, largest first. */
  ghost predicate Descending<T>(s: seq<T>, key: T -> int)
  {
    forall i, j :: 0 <= i < j < |s| ==> key(s[i]) >= key(s[j])
  }

  /** Inserting `x`, which came before every element of `sorted` in the
      input, ahead of the first element with a smaller key: ties keep input
      order, as the stable `Array.prototype.sort` does. */
  function Insert<T>(x: T, sorted: seq<T>, key: T -> int): (r: seq<T>)
    ensures multiset(r) == multiset(sorted) + multiset{x}
    ensures |r| == |sorted| + 1
  {
    if sorted == [] || key(x) >= key(sorted[0]) then [x] + sorted
    else
      assert sorted == [sorted[0]] + sorted[1..];
      [sorted[0]] + Insert(x, sorted[1..], key)
  }

  /** Every element of a descending list is at most its head. */
  lemma HeadIsLargest<T>(s: seq<T>, key: T -> int, y: T)
    requires Descending(s, key) && y in multiset(s)
    ensures key(s[0]) >= key(y)
  {
    var k :| 0 <= k < |s| && s[k] == y;
    if k > 0 {
      assert key(s[0]) >= key(s[k]);
    }
  }

  /** A list is descending when its head is largest and its tail descends. */
  lemma ConsDescending<T>(h: T, t: seq<T>, key: T -> int)
    requires Descending(t, key)
    requires forall j :: 0 <= j < |t| ==> key(h) >= key(t[j])
    ensures Descending([h] + t, key)
  {
    var r := [h] + t;
    forall i, j | 0 <= i < j < |r|
      ensures key(r[i]) >= key(r[j])
    {
      assert r[j] == t[j - 1];
      if i > 0 {
        assert r[i] == t[i - 1];
      }
    }
  }

  lemma {:induction false} InsertDescending<T>(x: T, sorted: seq<T>, key: T -> int)
    requires Descending(sorted, key)
    ensures Descending(Insert(x, sorted, key), key)
  {
    if sorted == [] || key(x) >= key(sorted[0]) {
      forall j | 0 <= j < |sorted|
        ensures key(x) >= key(sorted[j])
      {
        HeadIsLargest(sorted, key, sorted[j]);
      }
      ConsDescending(x, sorted, key);
    } else {
      var tail := sorted[1..];
      var rest := Insert(x, tail, key);
      assert Descending(tail, key) by {
        forall i, j | 0 <= i < j < |tail|
          ensures key(tail[i]) >= key(tail[j])
        {
          assert tail[i] == sorted[i + 1] && tail[j] == sorted[j + 1];
        }
      }
      InsertDescending(x, tail, key);
      forall j | 0 <= j < |rest|
        ensures key(sorted[0]) >= key(rest[j])
      {
        assert rest[j] in multiset(rest);
        if rest[j] != x {
          assert sorted == [sorted[0]] + tail;
          assert rest[j] in multiset(sorted);
          HeadIsLargest(sorted, key, rest[j]);
        }
      }
      ConsDescending(sorted[0], rest, key);
    }
  }

  /** A stable insertion sort by a key, largest first. */
  function SortDescending<T>(s: seq<T>, key: T -> int): (r: seq<T>)
    ensures multiset(r) == multiset(s)
    ensures |r| == |s|
    ensures Descending(r, key)
  {
    if s == [] then []
    else
      assert s == [s[0]] + s[1..];
      var tail := SortDescending(s[1..], key);
      InsertDescending(s[0], tail, key);
      Insert(s[0], tail, key)
  }

  /** `sort((a, b) => key(b) - key(a))`: newest first. */
  function SortNewest(s: seq<BountyItem>): seq<BountyItem>
  {
    SortDescending(s, Key)
  }

  /** `.slice(0, 3)` of the sorted list. */
  function Recent(s: seq<BountyItem>): seq<BountyItem>
  {
    SortNewest(s)[..Min(3, |s|)]
  }

  /** The first `k` elements of a descending list descend, and none of the
      elements after them has a larger key than any of them. */
  lemma {:induction false} PrefixOfDescending<T>(sorted: seq<T>, key: T -> int, k: nat)
    requires Descending(sorted, key) && k <= |sorted|
    ensures Descending(sorted[..k], key)
    ensures multiset(sorted) - multiset(sorted[..k]) == multiset(sorted[k..])
    ensures forall x, y :: x in sorted[..k] && y in multiset(sorted[k..]) ==> key(x) >= key(y)
  {
    var chosen := sorted[..k];
    var rest := sorted[k..];
    assert sorted == chosen + rest;
    assert multiset(sorted) == multiset(chosen) + multiset(rest);
    forall i, j | 0 <= i < j < |chosen|
      ensures key(chosen[i]) >= key(chosen[j])
    {
      assert chosen[i] == sorted[i] && chosen[j] == sorted[j];
    }
    forall x, y | x in chosen && y in multiset(rest)
      ensures key(x) >= key(y)
    {
      var i :| 0 <= i < k && chosen[i] == x;
      var j :| 0 <= j < |rest| && rest[j] == y;
      assert sorted[i] == x && sorted[k + j] == y;
    }
  }

  /** The recent list holds `min(3, n)` of the fetched bounties, newest
      first, and no bounty left out is newer than one chosen. */
  lemma RecentAreNewest(s: seq<BountyItem>)
    ensures |Recent(s)| == Min(3, |s|)
    ensures multiset(Recent(s)) <= multiset(s)
    ensures Descending(Recent(s), Key)
    ensures forall x, y :: x in Recent(s) && y in multiset(s) - multiset(Recent(s)) ==> Key(x) >= Key(y)
  {
    PrefixOfDescending(SortNewest(s), Key, Min(3, |s|));
  }

  /** A fetched bounty as an activity row. */
  function ActivityOf(b: BountyItem): (a: Activity)
    ensures a.action == "created"
    ensures a.creator != "" && a.project != ""
    ensures b.account.authority.Some? && b.account.authority.value != "" ==> a.creator == b.account.authority.value
    ensures b.account.title.Some? && b.account.title.value != "" ==> a.project == b.account.title.value
    ensures b.account.authority.None? || b.account.authority.value == "" ==> a.creator == "Unknown"
    ensures b.account.title.None? || b.account.title.value == "" ==> a.project == "Untitled Bounty"
  {
    Activity(StringOr(b.account.authority, "Unknown"), "created", StringOr(b.account.title, "Untitled Bounty"))
  }

  function Activities(s: seq<BountyItem>): (r: seq<Activity>)
    ensures |r| == |s|
    ensures forall i :: 0 <= i < |s| ==> r[i] == ActivityOf(s[i])
  {
    seq(|s|, i requires 0 <= i < |s| => ActivityOf(s[i]))
  }

  /** Sorting reads every bounty's key once there are two or more, and one
      unreadable key makes it throw. */
  predicate SortThrows(s: seq<BountyItem>)
  {
    |s| >= 2 && exists i :: 0 <= i < |s| && !Readable(s[i])
  }

  /** The effect run for the current program: no program resets the bar
      without fetching; otherwise `fetched` is the outcome of
      `program.account.bounty.all()`. The count is set before sorting, so a
      throwing sort leaves the count updated and the activity as it was; a
      failed fetch leaves both as they were. */
  function Load(st: State, program: Option<Program>, fetched: Result<seq<BountyItem>>): (r: State)
    ensures !r.loading
    ensures program.None? ==> r == State(0, [], false)
    ensures program.Some? && fetched.Thrown? ==> r == st.(loading := false)
    ensures program.Some? && fetched.Ok? ==> r.total == |fetched.value|
    ensures program.Some? && fetched.Ok? && SortThrows(fetched.value) ==> r.recent == st.recent
    ensures program.Some? && fetched.Ok? && !SortThrows(fetched.value) ==>
      && |r.recent| == Min(3, |fetched.value|)
      && (forall i :: 0 <= i < |r.recent| ==> r.recent[i].action == "created")
      && r.recent == Activities(Recent(fetched.value))
  {
    if program.None? then State(0, [], false)
    else match fetched
      case Thrown(_) => st.(loading := false)
      case Ok(bs) =>
        if SortThrows(bs) then st.(total := |bs|, loading := false)
        else
          RecentAreNewest(bs);
          State(|bs|, Activities(Recent(bs)), false)
  }

  /** The hard-coded rows. */
  const Fallback: seq<Activity> := [
    Activity("212...yw", "forked", "emojicher-class"),
    Activity("8ta...apm", "created", "pingzilla"),
    Activity("1tx...ush", "committed to", "mechslots")]

  /** The rows on display: the hard-coded ones while loading or when there is
      no recent activity, the recent activity otherwise. */
  function DisplayActivity(st: State): (r: seq<Activity>)
    ensures st.loading || st.recent == [] ==> r == Fallback
    ensures !st.loading && st.recent != [] ==> r == st.recent
  {
    if st.loading || st.recent == [] then Fallback else st.recent
  }

  /** The count on display: '...' while loading, else the locale-formatted
      total (the formatting itself is not modelled). */
  datatype CountText = Ellipsis | LocaleCount(n: nat)

  function DisplayCount(st: State): (c: CountText)
    ensures c.Ellipsis? <==> st.loading
    ensures c.LocaleCount? ==> c.n == st.total
  {
    if st.loading then Ellipsis else LocaleCount(st.total)
  }

  /** On mount, before any fetch has settled, the bar shows '...' and the
      hard-coded rows. */
  lemma MountShowsPlaceholders()
    ensures DisplayCount(Initial()) == Ellipsis
    ensures DisplayActivity(Initial()) == Fallback
  {
  }

  /** Without a program the bar shows a count of 0 and the hard-coded rows. */
  lemma NoProgramShowsFallback(st: State, fetched: Result<seq<BountyItem>>)
    ensures DisplayCount(Load(st, None, fetched)) == LocaleCount(0)
    ensures DisplayActivity(Load(st, None, fetched)) == Fallback
  {
  }

  /** This bar's `truncateAddress`: 'Unknown' for the empty string, otherwise
      the first three and last three characters around '...'. */
  function TruncateAddress(a: string): (r: string)
    ensures a == "" <==> r == "Unknown"
    ensures a != "" ==> r == SliceFront(a, 3) + "..." + SliceBack(a, 3)
  {
    if a == "" then "Unknown"
    else
      var r := Truncate(a, 3);
      assert r[Min(3, |a|)] == '.';
      assert '.' !in "Unknown";
      r
  }

  /** The hard-coded creators are already abbreviated and are abbreviated
      again on display: two come out unchanged, '212...yw' as '212....yw'. */
  lemma FallbackCreatorsAsDisplayed()
    ensures TruncateAddress(Fallback[0].creator) == "212....yw"
    ensures TruncateAddress(Fallback[1].creator) == Fallback[1].creator
    ensures TruncateAddress(Fallback[2].creator) == Fallback[2].creator
  {
    assert SliceFront("212...yw", 3) == "212";
    assert SliceBack("212...yw", 3) == ".yw";
    assert SliceFront("8ta...apm", 3) == "8ta";
    assert SliceBack("8ta...apm", 3) == "apm";
    assert SliceFront("1tx...ush", 3) == "1tx";
    assert SliceBack("1tx...ush", 3) == "ush";
  }
}

=== FILE: profile_form.dfy ===
/** The create-profile form (src/component/Profile/page.tsx): two fields and a
    busy flag. `createProfile` is split at its `await` like the bounty form's
    action. */
module ProfileForm {
  import opened Js
  import opened Ledger
  import ProgramContext
  import BountyForm

  datatype Form = Form(loading: bool, displayName: string, description: string)

  /** The guard: a wallet key and a program (the connection flag is not read). */
  predicate Ready(s: Session)
  {
    s.wallet.publicKey.Some? && s.program.Some?
  }

  /** `createProfile` up to its `await`: the profile address is derived from
      `["profile", owner]`. Without a key or program nothing happens. */
  function Begin(f: Form, s: Session): (r: (Form, Option<Tx>))
    ensures !Ready(s) ==> r == (f, None)
    ensures Ready(s) ==> r.0 == f.(loading := true) && r.1.Some?
    ensures r.1.Some? ==>
      var owner := s.wallet.publicKey.value;
      r.1.value == Tx("createProfile", Derived([Utf8("profile"), KeyBytes(owner)]), owner, [f.displayName, f.description])
  {
    if !Ready(s) then (f, None)
    else
      var owner := s.wallet.publicKey.value;
      (f.(loading := true), Some(Tx("createProfile", Derived(ProfileSeeds(owner)), owner, [f.displayName, f.description])))
  }

  /** `createProfile` after its `await`: on confirmation clear both fields,
      on failure keep them; the busy flag is cleared either way. */
  function Settle(f: Form, rpc: Rpc): (r: Form)
    ensures !r.loading
    ensures rpc.Confirmed? ==> r.displayName == "" && r.description == ""
    ensures rpc.Rejected? ==> r.displayName == f.displayName && r.description == f.description
  {
    if rpc.Confirmed? then Form(false, "", "") else f.(loading := false)
  }

  function Create(f: Form, s: Session, rpc: Rpc): (Form, Option<Tx>)
  {
    var (started, tx) := Begin(f, s);
    if tx.None? then (f, None) else (Settle(started, rpc), tx)
  }

  /** The button is disabled while busy. */
  predicate Clickable(f: Form)
  {
    !f.loading
  }

  /** A full run: nothing at all without a key or program; otherwise one
      transaction, the busy flag raised while it is in flight (so the button
      cannot be pressed twice) and lowered after; the fields are cleared on
      confirmation and kept on failure. */
  lemma CreateEffect(f: Form, s: Session, rpc: Rpc)
    ensures !Ready(s) ==> Create(f, s, rpc) == (f, None)
    ensures Ready(s) ==> !Clickable(Begin(f, s).0)
    ensures Ready(s) ==> var r := Create(f, s, rpc).0;
      && !r.loading
      && (rpc.Confirmed? ==> r == Form(false, "", ""))
      && (rpc.Rejected? ==> r == f.(loading := false))
  {
  }

  /** The profile form's guard omits the connection flag that the bounty
      form's guard checks, but under the program context the two accept the
      same sessions: a program is only present for a connected wallet. */
  lemma {:induction false} GuardsAgreeUnderProvider(ws: seq<Wallet>)
    requires |ws| > 0
    ensures var s := ProgramContext.Value(ProgramContext.RenderAll(ProgramContext.Mount(), ws), ws[|ws| - 1]);
      Ready(s) <==> BountyForm.Ready(s)
  {
    ProgramContext.ProgramTracksWallet(ws);
  }
}

=== FILE: program_context.dfy ===
/** The program context provider (src/context/ProgramContext.tsx): it holds
    the client object and rebuilds it whenever the wallet's connection flag or
    public key changes. Each render with a wallet is one step; the effect runs
    on the first render and afterwards only when one of its two dependencies
    differs from the previous run's. Every effect run that builds a client
    builds a new object, told apart from earlier ones by its run number. */
module ProgramContext {
  import opened Js
  import opened Ledger

  /** The two values the effect depends on: `[wallet.connected, wallet.publicKey]`. */
  datatype Deps = Deps(connected: bool, publicKey: Option<Address>)

  /** The provider's state: its `program`, the dependencies the effect last
      ran with (None before the first run) and how many times it has run. */
  datatype Provider = Provider(program: Option<Program>, lastRun: Option<Deps>, runs: nat)

  function DepsOf(w: Wallet): Deps
  {
    Deps(w.connected, w.publicKey)
  }

  /** The program the effect's run number `run` installs for the given dependencies. */
  function ProgramFor(d: Deps, run: nat): (p: Option<Program>)
    ensures p.Some? <==> d.connected && d.publicKey.Some?
    ensures p.Some? ==> p.value.signer == d.publicKey.value && p.value.instance == run
  {
    if d.connected && d.publicKey.Some? then Some(Program(d.publicKey.value, run)) else None
  }

  /** The state right after mounting: `useState(null)`, effect not yet run. */
  function Mount(): Provider
  {
    Provider(None, None, 0)
  }

  /** One render with wallet `w`: re-run the effect only when the
      dependencies changed since its last run. */
  function Render(p: Provider, w: Wallet): (r: Provider)
    ensures r.lastRun == Some(DepsOf(w))
    ensures p.lastRun == Some(DepsOf(w)) ==> r == p
    ensures p.lastRun != Some(DepsOf(w)) ==> r.runs == p.runs + 1
    ensures p.lastRun != Some(DepsOf(w)) ==>
      (r.program.Some? <==> w.connected && w.publicKey.Some?)
    ensures p.lastRun != Some(DepsOf(w)) && r.program.Some? ==>
      r.program.value.signer == w.publicKey.value && r.program.value.instance == r.runs
  {
    if p.lastRun == Some(DepsOf(w)) then p
    else Provider(ProgramFor(DepsOf(w), p.runs + 1), Some(DepsOf(w)), p.runs + 1)
  }

  /** The context value: the provider's program and the incoming wallet, unchanged. */
  function Value(p: Provider, w: Wallet): (s: Session)
    ensures s.wallet == w && s.program == p.program
  {
    Session(p.program, w)
  }

  /** Rendering with each wallet of `ws` in turn. */
  function RenderAll(p: Provider, ws: seq<Wallet>): Provider
    decreases |ws|
  {
    if ws == [] then p else RenderAll(Render(p, ws[0]), ws[1..])
  }

  /** The provider's program is the one its last effect run installed. */
  ghost predicate Settled(p: Provider)
  {
    && (p.lastRun.Some? ==> p.program == ProgramFor(p.lastRun.value, p.runs))
    && (p.lastRun.None? ==> p.program.None?)
  }

  /** After any non-empty sequence of renders, the program is present exactly
      when the latest wallet is connected and has a key, and it is bound to
      that key; in every other case it is null. */
  lemma {:induction false} ProgramTracksWallet(ws: seq<Wallet>)
    requires |ws| > 0
    ensures var s := Value(RenderAll(Mount(), ws), ws[|ws| - 1]);
      && (s.program.Some? <==> s.wallet.connected && s.wallet.publicKey.Some?)
      && (s.program.Some? ==> s.program.value.signer == s.wallet.publicKey.value)
  {
    RenderAllSettled(Mount(), ws);
  }

  lemma {:induction false} RenderAllSettled(p: Provider, ws: seq<Wallet>)
    requires Settled(p)
    ensures Settled(RenderAll(p, ws))
    ensures |ws| > 0 ==> RenderAll(p, ws).lastRun == Some(DepsOf(ws[|ws| - 1]))
    decreases |ws|
  {
    if ws != [] {
      var q := Render(p, ws[0]);
      assert Settled(q);
      RenderAllSettled(q, ws[1..]);
      if |ws| == 1 {
        assert ws[1..] == [];
      } else {
        assert ws[1..][|ws[1..]| - 1] == ws[|ws| - 1];
      }
    }
  }

  /** Re-rendering with a wallet whose connection flag and key are unchanged
      does not re-run the effect: no new client is built, and the one in
      place is the very same object. */
  lemma SameDepsKeepProgram(p: Provider, w1: Wallet, w2: Wallet)
    requires DepsOf(w1) == DepsOf(w2)
    ensures Render(Render(p, w1), w2).runs == Render(p, w1).runs
    ensures Render(Render(p, w1), w2).program == Render(p, w1).program
  {
  }

  /** A change of connection flag or key re-runs the effect: for a connected
      wallet with a key it installs a new client, a different object from
      the one in place before. */
  lemma ChangedDepsNewProgram(p: Provider, w: Wallet)
    requires Settled(p)
    requires p.lastRun != Some(DepsOf(w))
    requires w.connected && w.publicKey.Some?
    ensures Render(p, w).runs == p.runs + 1
    ensures Render(p, w).program.Some?
    ensures p.program.Some? ==> Render(p, w).program.value != p.program.value
  {
  }
}

=== FILE: view_bounty.dfy ===
/** The bounty detail view (src/component/ViewBounty/page.tsx): the fetch
    guard and its error priority, normalisation of the one fetched account
    (the list view's rules, but a failure here fails the whole view), the
    like and submit-solution actions with their optimistic patches, and which
    controls are enabled. Each action is split at its `await`: `Begin*` is
    the synchronous part (guard, busy flag, the transaction to send) and
    `Settle*` what happens once the call resolves. */
module ViewBounty {
  import opened Js
  import opened Ledger
  import BountyList

  /** The fetch guard: no program, then no connected wallet, then no (or an
      empty) route id, in that order of priority. */
  function Guard(s: Session, bountyId: Option<string>): (e: Option<string>)
    ensures e.None? <==> s.program.Some? && s.wallet.connected && bountyId.Some? && bountyId.value != ""
    ensures s.program.None? ==> e == Some("Program not initialized")
    ensures s.program.Some? && !s.wallet.connected ==> e == Some("Wallet not connected")
    ensures s.program.Some? && s.wallet.connected && (bountyId.None? || bountyId.value == "") ==>
      e == Some("No bounty ID provided")
  {
    if s.program.None? || !s.wallet.connected || bountyId.None? || bountyId.value == "" then
      Some(if s.program.None? then "Program not initialized"
           else if !s.wallet.connected then "Wallet not connected"
           else "No bounty ID provided")
    else None
  }

  /** What the view settles on after loading. */
  datatype DetailView = Failed(error: string) | Shown(bounty: BountyList.BountyView)

  /** Loading the bounty: `fetched` is the outcome of
      `program.account.bounty.fetch(new PublicKey(bountyId))`, consulted only
      when the guard passes. Normalisation runs inside the same `try`, so an
      account that fails to normalise fails the view. */
  function Load(s: Session, bountyId: Option<string>, fetched: Result<BountyAccount>): (v: DetailView)
    ensures Guard(s, bountyId).Some? ==> v == Failed(Guard(s, bountyId).value)
    ensures Guard(s, bountyId).None? && fetched.Thrown? ==> v == Failed("Failed to fetch bounty: " + fetched.message)
    ensures Guard(s, bountyId).None? && fetched.Ok? && BountyList.Normalise(fetched.value).Thrown? ==>
      v == Failed("Failed to fetch bounty: " + BountyList.Normalise(fetched.value).message)
    ensures v.Shown? <==> Guard(s, bountyId).None? && fetched.Ok? && BountyList.Normalise(fetched.value).Ok?
    ensures v.Shown? ==> BountyList.Normal(v.bounty) && v.bounty.authority == fetched.value.authority
  {
    if Guard(s, bountyId).Some? then Failed(Guard(s, bountyId).value)
    else match fetched
      case Thrown(m) => Failed("Failed to fetch bounty: " + m)
      case Ok(a) =>
        match BountyList.Normalise(a)
        case Thrown(m) => Failed("Failed to fetch bounty: " + m)
        case Ok(b) => Shown(b)
  }

  /** The detail view uses the list view's normalisation unchanged: a bounty
      that shows in the list as a normalised entry shows here as the same record. */
  lemma SameNormalisationAsList(s: Session, bountyId: Option<string>, item: BountyItem)
    requires Guard(s, bountyId).None?
    requires BountyList.FormatItem(item).Formatted?
    ensures Load(s, bountyId, Ok(item.account)) == Shown(BountyList.FormatItem(item).account)
  {
  }

  /** The view's local state once loaded. */
  datatype Detail = Detail(
    bounty: Option<BountyList.BountyView>,
    isLiked: bool,
    loadingLike: bool,
    modalOpen: bool,
    prUrl: string,
    loadingSubmit: bool)

  /** The guard shared by like and submit: a wallet key, a program and a route id. */
  predicate ActionReady(s: Session, bountyId: Option<string>)
  {
    s.wallet.publicKey.Some? && s.program.Some? && bountyId.Some? && bountyId.value != ""
  }

  /** `likeBounty` up to its `await`. */
  function BeginLike(d: Detail, s: Session, bountyId: Option<string>): (r: (Detail, Option<Tx>))
    ensures !ActionReady(s, bountyId) ==> r == (d, None)
    ensures ActionReady(s, bountyId) ==> r.0 == d.(loadingLike := true)
    ensures ActionReady(s, bountyId) ==>
      r.1 == Some(Tx("likeBounty", At(bountyId.value), s.wallet.publicKey.value, []))
  {
    if !ActionReady(s, bountyId) then (d, None)
    else (d.(loadingLike := true), Some(Tx("likeBounty", At(bountyId.value), s.wallet.publicKey.value, [])))
  }

  /** `likeBounty` after its `await`: on confirmation mark the bounty liked
      and add one like to a loaded bounty (`(prev.likes || 0) + 1`). */
  function SettleLike(d: Detail, rpc: Rpc): (r: Detail)
    ensures !r.loadingLike
    ensures rpc.Rejected? ==> r == d.(loadingLike := false)
    ensures rpc.Confirmed? ==> r.isLiked && (r.bounty.Some? <==> d.bounty.Some?)
    ensures rpc.Confirmed? && d.bounty.Some? ==>
      && r.bounty.value.likes == d.bounty.value.likes + 1
      && r.bounty.value.(likes := 0) == d.bounty.value.(likes := 0)
    ensures r.(bounty := d.bounty, isLiked := d.isLiked, loadingLike := d.loadingLike) == d
  {
    match rpc
    case Rejected(_) => d.(loadingLike := false)
    case Confirmed(_) =>
      d.(isLiked := true,
         bounty := if d.bounty.Some? then Some(d.bounty.value.(likes := OrZero(Int(d.bounty.value.likes)) + 1)) else None,
         loadingLike := false)
  }

  function Like(d: Detail, s: Session, bountyId: Option<string>, rpc: Rpc): (Detail, Option<Tx>)
  {
    var (started, tx) := BeginLike(d, s, bountyId);
    if tx.None? then (d, None) else (SettleLike(started, rpc), tx)
  }

  /** A confirmed like adds exactly one to the displayed count and changes
      nothing else about the bounty; a failed one changes only the busy flag;
      a missing key, program or id does nothing at all. */
  lemma LikeEffect(d: Detail, s: Session, bountyId: Option<string>, rpc: Rpc)
    ensures !ActionReady(s, bountyId) ==> Like(d, s, bountyId, rpc) == (d, None)
    ensures ActionReady(s, bountyId) && rpc.Confirmed? && d.bounty.Some? ==>
      var b := d.bounty.value;
      Like(d, s, bountyId, rpc) ==
        (d.(isLiked := true, loadingLike := false, bounty := Some(b.(likes := b.likes + 1))),
         Some(Tx("likeBounty", At(bountyId.value), s.wallet.publicKey.value, [])))
    ensures ActionReady(s, bountyId) && rpc.Confirmed? && d.bounty.None? ==>
      Like(d, s, bountyId, rpc).0 == d.(isLiked := true, loadingLike := false)
    ensures ActionReady(s, bountyId) && rpc.Rejected? ==> Like(d, s, bountyId, rpc).0 == d.(loadingLike := false)
  {
  }

  /** `submitSolution` up to its `await`: the solution address is derived
      from `["solution", bounty, submitter]`. */
  function BeginSubmit(d: Detail, s: Session, bountyId: Option<string>): (r: (Detail, Option<Tx>))
    ensures !ActionReady(s, bountyId) ==> r == (d, None)
    ensures ActionReady(s, bountyId) ==> r.0 == d.(loadingSubmit := true) && r.1.Some?
    ensures r.1.Some? ==>
      var submitter := s.wallet.publicKey.value;
      r.1.value == Tx("submitSolution", Derived([Utf8("solution"), KeyBytes(bountyId.value), KeyBytes(submitter)]),
                      submitter, [d.prUrl])
  {
    if !ActionReady(s, bountyId) then (d, None)
    else
      var submitter := s.wallet.publicKey.value;
      (d.(loadingSubmit := true),
       Some(Tx("submitSolution", Derived(SolutionSeeds(bountyId.value, submitter)), submitter, [d.prUrl])))
  }

  /** `submitSolution` after its `await`: on confirmation clear the link and
      close the modal; on failure keep both. */
  function SettleSubmit(d: Detail, rpc: Rpc): (r: Detail)
    ensures !r.loadingSubmit
    ensures rpc.Confirmed? ==> r.prUrl == "" && !r.modalOpen
    ensures rpc.Rejected? ==> r.prUrl == d.prUrl && r.modalOpen == d.modalOpen
    ensures r.bounty == d.bounty && r.isLiked == d.isLiked && r.loadingLike == d.loadingLike
  {
    match rpc
    case Confirmed(_) => d.(prUrl := "", modalOpen := false, loadingSubmit := false)
    case Rejected(_) => d.(loadingSubmit := false)
  }

  function Submit(d: Detail, s: Session, bountyId: Option<string>, rpc: Rpc): (Detail, Option<Tx>)
  {
    var (started, tx) := BeginSubmit(d, s, bountyId);
    if tx.None? then (d, None) else (SettleSubmit(started, rpc), tx)
  }

  /** The like button: disabled while a like is in flight or without a connected wallet. */
  predicate LikeEnabled(d: Detail, s: Session)
  {
    !d.loadingLike && s.wallet.connected
  }

  /** The modal's submit button: disabled while submitting or with an empty link. */
  predicate SubmitEnabled(d: Detail)
  {
    !d.loadingSubmit && d.prUrl != ""
  }

  /** The 'submit solution' opener, rendered only for a connected wallet:
      pressing it opens the modal; without a connected wallet there is
      nothing to press. */
  function OpenModal(d: Detail, s: Session): (r: Detail)
    ensures r.modalOpen <==> d.modalOpen || s.wallet.connected
    ensures r.(modalOpen := d.modalOpen) == d
  {
    if s.wallet.connected then d.(modalOpen := true) else d
  }

  /** The modal's cancel button: closes it and keeps the typed link. */
  function CloseModal(d: Detail): (r: Detail)
    ensures !r.modalOpen && r.prUrl == d.prUrl
    ensures r.(modalOpen := d.modalOpen) == d
  {
    d.(modalOpen := false)
  }

  /** The busy flags gate the controls: while a like or a submission is in
      flight its button cannot be pressed again, and an empty link cannot be
      submitted from the modal. */
  lemma BusyFlagsGate(d: Detail, s: Session, bountyId: Option<string>)
    requires ActionReady(s, bountyId)
    ensures !LikeEnabled(BeginLike(d, s, bountyId).0, s)
    ensures !SubmitEnabled(BeginSubmit(d, s, bountyId).0)
    ensures d.prUrl == "" ==> !SubmitEnabled(d)
  {
  }

  /** A confirmed submission leaves the submit button disabled (the link is
      cleared); a failed one leaves it enabled exactly when the kept link is non-empty. */
  lemma SubmitThenEnabled(d: Detail, s: Session, bountyId: Option<string>, rpc: Rpc)
    requires ActionReady(s, bountyId)
    ensures rpc.Confirmed? ==> !SubmitEnabled(Submit(d, s, bountyId, rpc).0)
    ensures rpc.Rejected? ==> (SubmitEnabled(Submit(d, s, bountyId, rpc).0) <==> d.prUrl != "")
  {
  }

  /** The detail image: the image link when there is one, else the fallback image. */
  function Image(b: BountyList.BountyView): (r: string)
    ensures r != ""
    ensures r == b.imageUri || (b.imageUri == "" && r == BountyList.FallbackImage)
  {
    if b.imageUri != "" then b.imageUri else BountyList.FallbackImage
  }
}
